=== FILE: README.md ===
# bindash command layer in Dafny

This project models the command-line layer of bindash (`src/commands.hpp`).
bindash is a tool that compares genomes through b-bit minhash sketches. The
layer modelled here is everything that happens before any sequence is hashed:

- **`sketch` options** (`Sketchargs::_parse`, `Sketchargs::parse`). Each token
  after the subcommand is classified as a help request, an unrecognized option,
  an option whose value does not read, or an accepted token. An accepted token
  sets one field or is appended to the input names. When no input name is
  given, the names are the lines of standard input or of the `--listfname`
  file.
- **The configuration header** (`Sketchargs::write`, `Sketchargs::read`). `write`
  stores four provenance comments and then one `--name=value` line per field.
  `read` skips the first line and classifies every later line like an option
  token.
- **The compatibility check** (`areequals_printerrifnot`, `verifycompatible`).
  Two sketch configurations are compared on the seven fields that shape the
  minhash values. Every difference gets its own report.
- **Genome resolution** (`parse_metaf`). Tab-separated descriptor lines become
  per-file lists of (genome id, sequence count) pairs, a file-name table and a
  dense genome-name table. Genome names must be unique across all lines.
- **`dist` options** (`Distargs::_parse`, `Distargs::parse`). These work like the
  `sketch` options, with no comment key. Afterwards one or two sketch names
  must have been collected.

Every `exit` and `usage` call becomes an error value: `CliError` for the option
parsers, `HeaderError` for the header, `MetaError` for genome resolution, and the list of
`Report`s in the error of `verifycompatible`.
Files are a `FileSystem` map from path to text, and standard input is a text
parameter.

Modules:

| module | file | role |
|---|---|---|
| `Results` | results.dfy | `Option` and `Result` |
| `Streams` | streams.dfy | `std::getline` splitting, `>>` extraction (libstdc++, "C" locale), `<<` printing, 64-bit and 32-bit integer types |
| `Options` | options.dfy | the `--name=value` token shape, typed values, the four token outcomes, driver errors, and the last-assignment reference `LastAssigned` |
| `Sketch` | sketch.dfy | `Sketchargs` and its parser |
| `Header` | header.dfy | `write`/`read` and their round trip |
| `Compat` | compat.dfy | `verifycompatible` |
| `Entities` | entities.dfy | `parse_metaf` and the reference map `Expected` it must build |
| `Dist` | dist.dfy | `Distargs` and its parser |

## Model

| member | source | states |
|---|---|---|
| Streams.Split | src/commands.hpp:194-207 | The lines repeated `getline` extracts contain no delimiter, and there are none exactly when the text is empty. |
| Streams.SplitJoin | src/commands.hpp:144-153 | Lines each written with a closing `\n` are read back by repeated `getline` as exactly those lines. |
| Streams.ReadUnsignedShown | src/commands.hpp:221 | `>>` into a `size_t` reads back what `<<` printed, and text after the digits is left unread (`10abc` reads as 10). |
| Streams.ReadSignedShown | src/commands.hpp:226 | `>>` into an `int` reads back what `<<` printed, negative values included. |
| Streams.ReadBoolShown | src/commands.hpp:222-223 | `>> std::boolalpha` reads back the `true`/`false` that `<< std::boolalpha` printed. |
| Streams.ReadWordShown | src/commands.hpp:225 | `>>` into a `std::string` reads back a non-empty, whitespace-free word and stops at the whitespace that follows it. |
| Options.ReadValue | src/commands.hpp:221-230 | A successful extraction yields a value of the field's own C++ type, and a string value is always a single word. |
| Options.ReadShownValue | src/commands.hpp:144-153 | Any value `write` prints, a string being a single word, is read back unchanged by the extraction for its type. |
| Options.OptionKey | src/commands.hpp:217 | The key is the longest `=`-free prefix of the token, and the token continues with `=` wherever the key stops short. |
| Options.OptionText | src/commands.hpp:218 | The value text is a prefix of what follows the first `=`, contains no newline, and ends at the first newline or at the end of the token. It is empty when the token has no `=`. |
| Options.OptionLine | src/commands.hpp:144-153 | A written `key=text` line splits back into exactly that key and text. |
| Options.Positionals | src/commands.hpp:232-234 | The input names among the tokens are exactly the tokens whose key does not start with `--`. |
| Options.HelpIsNotPositional | src/commands.hpp:220 | A token that starts with `--help` is never taken for an input name. |
| Options.Complaint | src/commands.hpp:181-189 | A driver answers code 1 with plain usage, -1 with "Unrecognized option" naming the token, and -2 with "Option without value" naming the token. Every one of the three ends the program with exit status 1. |
| Options.CommandTokens | src/commands.hpp:178 | The k-th token parsed is `argv[k + 2]`, so all of `argv[2..]` is parsed in order, and there are none when `argc <= 2`. |
| Options.LastAssignedAppend | src/commands.hpp:178-190 | The value the last assignment leaves after two runs of tokens is what the second run leaves, starting from what the first left. |
| Sketch.FieldNamed | src/commands.hpp:221-230 | A key names a field exactly when it is that field's `--name`. |
| Sketch.FieldNamedName | src/commands.hpp:221-230 | Each field's key selects that field and no other. |
| Sketch.NameShape | src/commands.hpp:220-235 | Every field key starts with `--`, has no `=`, and is neither a help request nor `--COMMENT`. |
| Sketch.DefaultSketchArgs | src/commands.hpp:57-68 | A fresh configuration has no input names, reads its list from `-` (standard input), and has single-word file names. |
| Sketch.Set | src/commands.hpp:221-230 | Assigning a field changes that field to the given value and leaves every other field and the input names alone. |
| Sketch.SameFields | src/commands.hpp:57-67 | A configuration is determined by its input names and its ten field values. |
| Sketch.ParseSketchToken | src/commands.hpp:213-242 | A token that is not a help request and whose key does not start with `--` is appended verbatim. A `--COMMENT` token changes nothing. An accepted field token sets its own field to the value read from its text, and nothing else. |
| Sketch.ParseSketchTokenCode | src/commands.hpp:213-242 | The code `_parse` returns depends on the token alone. `--help…` gives 1 before any key is matched. Any other `--` key that is not a field or `--COMMENT` gives -1. A field whose value fails to read gives -2. Everything else gives 0. |
| Sketch.PositionalStep | src/commands.hpp:232-234 | An accepted token extends the input names by itself exactly when it is an input name. |
| Sketch.ParseSketchTokens | src/commands.hpp:178-190 | The loop succeeds exactly when every token's code is 0. The input names are then extended by the input-name tokens in order. Otherwise the first token with a non-zero code stops it, with the complaint for that code. |
| Sketch.TokenAssigns | src/commands.hpp:221-231 | After one accepted token, every field holds what that token assigns to it, or its earlier value. |
| Sketch.ParseSketchTokensFields | src/commands.hpp:178-190 | After the accepted tokens, every field holds the value read from the last token naming it, or its initial value when no token names it. |
| Sketch.ParseSketchArgs | src/commands.hpp:177-211 | A rejected token stops `parse` with that token's complaint. On success every field holds its last-assigned value. The input names come from the positional tokens when there are any. Otherwise they are the standard-input lines when `listfname` is `-` (a `--help` line asks for usage), or else the lines of the list file (a missing file gives `ListFileUnreadable`). |
| Sketch.OptionsExample | src/commands.hpp:177-242 | `sketch --bbits=10 --kmerlen=15 file1.fa file2.fa` sets those two options and the two inputs, and leaves everything else at the defaults. |
| Header.FieldLines | src/commands.hpp:144-153 | The k-th field line is `--name=value` for the k-th field of the write order. |
| Header.WriteHeader | src/commands.hpp:134-156 | Writing succeeds exactly when `outfname` can be opened. The file then holds the header text, every other file is left alone, and otherwise writing fails with `CannotWrite(outfname)`. |
| Header.HeaderTextLines | src/commands.hpp:140-153 | With single-word file names, time stamps that break a line only at their end and a one-line revision, the header text cut into lines ends with the ten field lines in write order. Every line between the first and those ten is a `--COMMENT=` line. |
| Header.WriteOrderComplete | src/commands.hpp:144-153 | `write` emits every field of the configuration. |
| Header.ReadLines | src/commands.hpp:166-172 | Reading succeeds exactly when every line is accepted. The input-name lines are then appended, and every field holds the value of the last line naming it. Otherwise the first rejected line is reported with the path. |
| Header.FieldsAfterStep | src/commands.hpp:166-172 | Once an accepted line is read, the last-assigned value of each field over the remaining lines is its last-assigned value over all of them. |
| Header.LaterCodes | src/commands.hpp:164-172 | The lines after the first are all accepted exactly when every line at index 1 or later is. |
| Header.ReadHeaderText | src/commands.hpp:164-172 | Reading a header's text succeeds exactly when every line after the first is accepted, whatever the first line holds. The names and fields are those of the later lines, and otherwise the first rejected later line is reported. |
| Header.ReadHeader | src/commands.hpp:158-175 | A path that cannot be opened gives `CannotRead`. Otherwise reading succeeds exactly when every line after the first is accepted, so the first line is never classified. |
| Header.CommentLineIgnored | src/commands.hpp:231 | A `--COMMENT=` line is accepted and changes nothing. |
| Header.CommentLinesIgnored | src/commands.hpp:166-172 | Comment lines in front of other lines do not change what reading them gives. |
| Header.FieldLineParses | src/commands.hpp:144-153 | Each written field line is accepted and assigns its field the value it was written with. |
| Header.FieldLinesRestore | src/commands.hpp:144-172 | Reading the written field lines sets exactly those fields to their written values, and leaves the other fields and the input names alone. |
| Header.HeaderRoundTrip | src/commands.hpp:134-175 | Reading a written header into any configuration restores all ten written fields and keeps that configuration's input names. This holds given single-word file names, time stamps that break a line only at their end, and a one-line revision. |
| Header.WriteThenRead | src/commands.hpp:134-175 | Under the same conditions, what `write` stores under `outfname` is what `read` then restores from that path. |
| Compat.ShowPlainInjective | src/commands.hpp:80 | Two values of one type print alike on standard error exactly when they are equal. |
| Compat.CompareField | src/commands.hpp:77-85 | A field draws no report exactly when both values agree. Otherwise it draws one report naming the field, both printed values and both files, and the two values differ. |
| Compat.Mismatches | src/commands.hpp:88-95 | There is one report per differing field, in comparison order, because `&=` does not short-circuit. |
| Compat.MismatchesNone | src/commands.hpp:88-96 | Nothing is reported exactly when the configurations agree on every compared field. |
| Compat.CompatibleByField | src/commands.hpp:89-95 | The seven compared fields, looked up by name, are exactly the fields compatibility needs. |
| Compat.VerifyCompatible | src/commands.hpp:87-97 | The check passes exactly when `bbits`, `iscasepreserved`, `isstrandpreserved`, `kmerlen`, `minhashtype`, `randseed` and `sketchsize64` agree. Otherwise it fails with at least one report, and every report names the two files in order. |
| Compat.MismatchesSwap | src/commands.hpp:88-95 | Comparing in the other order reports the same fields, with the sides exchanged. |
| Compat.VerifyCompatibleSwap | src/commands.hpp:87-97 | The check is symmetric: both orders fail or neither does, and their reports correspond one to one. |
| Compat.OnlyBBitsDiffers | src/commands.hpp:89-96 | Configurations that differ only in `bbits` draw exactly one report, on `--bbits`. |
| Compat.BBitsExample | src/commands.hpp:87-97 | The defaults with `--bbits=10` against `--bbits=12` fail with the single report `--bbits has values 10 and 12`. |
| Entities.Entries | src/commands.hpp:263-265 | The n fields after the file name give (n + 1) / 2 entries. Entry k is named by field 2k, and its count is read from field 2k + 1, or is missing when a last name has no count. |
| Entities.PositiveCountShown | src/commands.hpp:266-268 | A positive count written in decimal, followed by nothing or by text that does not start with a digit, is read back as that count. |
| Entities.ZeroCountFails | src/commands.hpp:266-268 | The count `0` is read but rejected as not positive. |
| Entities.MissingCountFails | src/commands.hpp:263-269 | A genome name without a count text fails the count checks. |
| Entities.ParseMeta | src/commands.hpp:244-293 | Resolution succeeds exactly when every line is well formed and all genome names (explicit, or the bare file name) are distinct. It then equals the reference map: one group list and one file name per line, and dense ids in first-seen order. Each failure kind names a malformed line, a name that occurs twice, or a bare file name taken by an earlier line. |
| Entities.BuildSpec | src/commands.hpp:253-291 | The line-by-line resolution accepts exactly the well-formed lines with globally distinct names, and builds the reference map with the shared name set equal to the names used. |
| Entities.AddLineSpec | src/commands.hpp:254-290 | One line is accepted exactly when it is well formed and its names are new and distinct. Its groups, file name and genome names are then appended, with ids counting on from the names so far. The -8 case arises only on lines with explicit genome names, for a name already taken or repeated. A bare line can fail only with the -16 case, when its file name is already taken. |
| Entities.GroupsNameGenomes | src/commands.hpp:259-278 | On success, the k-th pair of file i has an id that indexes the genome-name table at the k-th genome of line i, and `fid_to_fname[i]` is line i's text before the first tab. |
| Entities.ExpectedGroupsAt | src/commands.hpp:276-278 | The ids of line i start at the number of genomes of the lines before it. |
| Entities.SingleLine | src/commands.hpp:254-290 | One line resolves exactly when it is well formed with distinct names, into its own groups numbered from 0. |
| Entities.BareLine | src/commands.hpp:280-290 | A bare file name becomes one genome named after the file, with id 0 and the count `SIZE_MAX - 1`. |
| Entities.BareLineExample | src/commands.hpp:280-290 | The line `genomeA.fa` resolves to one genome `genomeA.fa` with the unknown count. |
| Entities.SplitTabJoin | src/commands.hpp:255-265 | A line written from tab-free fields, the last one non-empty, is cut by the tab `getline`s back into those fields. |
| Entities.TwoGenomeLine | src/commands.hpp:263-279 | A line naming two distinct genomes with positive counts resolves to ids 0 and 1 with those counts. |
| Entities.TwoGenomeExample | src/commands.hpp:263-279 | `multi.fa<TAB>g1<TAB>3<TAB>g2<TAB>5` resolves to file `multi.fa` with genomes `g1` (id 0, 3 sequences) and `g2` (id 1, 5 sequences). |
| Dist.FieldNamed | src/commands.hpp:347-352 | A key names a `dist` field exactly when it is that field's `--name`. |
| Dist.NameShape | src/commands.hpp:346-353 | Every `dist` key starts with `--`, has no `=`, and is not a help request, so `--help` keeps precedence over every field. |
| Dist.ReadSettingShown | src/commands.hpp:347-352 | A `size_t` field's value, or a single-word `--outfname`, printed as text is read back by that field as the same value. |
| Dist.Set | src/commands.hpp:347-352 | Assigning a field changes that field alone. |
| Dist.SameFields | src/commands.hpp:297-303 | A `dist` configuration is determined by its input names and its six field values. |
| Dist.ParseDistToken | src/commands.hpp:339-363 | A token whose key does not start with `--` is appended verbatim. An accepted field token sets its own field to the value read from its text, and nothing else. |
| Dist.ParseDistTokenCode | src/commands.hpp:339-363 | The code depends on the token alone. `--help…` gives 1 first. Any other `--` key that is not a field gives -1, with no comment exception. A field whose value fails to read gives -2. Everything else gives 0. |
| Dist.CommentIsUnknown | src/commands.hpp:346-358 | `--COMMENT=…` is an unrecognized option for `dist`. |
| Dist.PositionalStep | src/commands.hpp:353-355 | An accepted token extends the sketch names by itself exactly when it is an input name. |
| Dist.ParseDistTokens | src/commands.hpp:366-378 | The loop succeeds exactly when every token's code is 0, with the positional tokens appended in order. Otherwise the first rejected token stops it with its complaint. |
| Dist.ParseDistTokensFields | src/commands.hpp:366-378 | After the accepted tokens, every field holds the value read from the last token naming it, or its initial value. |
| Dist.ParseDistArgs | src/commands.hpp:365-384 | `parse` succeeds exactly when every token's code is 0 and one or two sketch names were collected. A failure of the token loop is returned unchanged. Failure is the first rejection's complaint, or `WrongArgumentCount` when every token was accepted. On success the names are the positional tokens and every field holds its last-assigned value. |
| Dist.MThresExample | src/commands.hpp:365-384 | `dist --mthres=0.2 q.sketch` sets only `mthres` and the single query, for a `double` reader that reads `0.2` as 0.2. |
| Dist.CommentExample | src/commands.hpp:369-371 | `dist --COMMENT=x q.sketch` stops with "Unrecognized option: --COMMENT=x". |
| Dist.ThreeSketchesExample | src/commands.hpp:379-382 | Three sketch names stop `dist` with the argument-count usage. |
| Dist.NoSketchExample | src/commands.hpp:379-382 | No sketch name stops `dist` with the argument-count usage. |

## Left out

- Usage texts: `allusage`, `Sketchargs::usage` and `Distargs::usage` print help and exit. The help, option and argument-count cases become the `UsageRequested`, `UnrecognizedOption`, `OptionWithoutValue` and `WrongArgumentCount` errors, whose exit status is 1. The text itself is not modelled.
- Real I/O: opening and reading files, and `std::cin`, become the `FileSystem` map and a standard-input text. A file that cannot be opened is a path missing from the map (or, for writing, absent from `writable`). Messages written to standard error are not modelled, except for the reports of `verifycompatible`.
- `time(NULL)` in the `Sketchargs` constructor is the `now` parameter of `DefaultSketchArgs`.
- The build-time macros `GIT_COMMIT_HASH`/`GIT_DIFF_SHORTSTAT` are the free `revision` text of a comment line. The time stamps and the CPU-second count of `write` are parameters too.
- Bytes: a Dafny `char` stands for a C++ `char`. No encoding is modelled, and `isspace` is the "C"-locale set.
- `>>` follows libstdc++ in the "C" locale. Whitespace is skipped, then one optional sign and the longest digit run are read. Overflow fails, and a minus sign on an unsigned target negates modulo 2^64. An `int` is read as a `long` and range-checked. `size_t` is 64 bits and `int` is 32 bits. Other standard libraries or targets may differ.
- The value a failed extraction leaves in its field is not modelled, because the command stops with usage right after.
- `mthres`/`pthres`: the `double` extraction is the caller-supplied `FloatReader` parameter, so every `dist` statement holds for any reader. The defaults are held as the reals 2.5 and 1.0001, not as the nearest `double` to `1 + 1e-4`.
- The `assert`s of `parse_metaf` become the `MalformedLine` error: an empty line, or a genome without a positive count. A build with `NDEBUG` would instead carry on with whatever `nseqs` held.
- Header.HeaderRoundTrip: holds only when `listfname` and `outfname` are single words, when the two time stamps contain `\n` at most as their last character, and when the revision text has no `\n`. Outside these, `write` produces lines `read` cuts differently.
- Entities.ParseMeta: a failure names a malformed line or a duplicated name, not necessarily the first one the loop meets.
- The count `SIZE_MAX - 1` of a bare file is an ordinary `U64` value. A line that spells out that count explicitly cannot be told apart from a bare file's group.
- In `Sketchargs::parse`, standard input is read line by line, and a `--help` line stops the command at once. The model reads all lines first and then asks for usage if any line is `--help`, which gives the same outcome.
- Compat.VerifyCompatible: `verifycompatible` calls `exit(2)` on a mismatch. The model returns the reports as an error value instead and does not carry the status 2.
- Plain definitions without a contract of their own: `Header.HeaderText` (its lines are stated by `Header.HeaderTextLines`), `Compat.Report.Message`, `Options.CliError.ExitStatus`, `Header.HeaderError.ExitStatus` and `Dist.DefaultDistArgs`. Each just spells out a text, a constant or a fixed record.

=== FILE: compat.dfy ===
/** The check `dist` makes before comparing two sketches (`verifycompatible`):
    every field that shapes the minhash values must agree, and each field that
    does not is reported on its own. */
module Compat {
  import opened Results
  import opened Streams
  import opened Options
  import opened Sketch

  /** The fields compared, in the order they are compared. */
  const ComparedFields: seq<Field> :=
    [BBits, IsCasePreserved, IsStrandPreserved, KmerLen, MinhashType, RandSeed, SketchSize64]

  /** Two configurations whose sketches can be compared: they agree on how the
      minhash values were made. Thread count, file names and inputs may differ. */
  predicate Compatible(a1: SketchArgs, a2: SketchArgs)
  {
    && a1.bbits == a2.bbits
    && a1.iscasepreserved == a2.iscasepreserved
    && a1.isstrandpreserved == a2.isstrandpreserved
    && a1.kmerlen == a2.kmerlen
    && a1.minhashtype == a2.minhashtype
    && a1.randseed == a2.randseed
    && a1.sketchsize64 == a2.sketchsize64
  }

  /** One "has values ... and ..." complaint written to standard error. */
  datatype Report = Report(option: string, value1: string, value2: string, file1: string, file2: string)
  {
    function Message(): string
    {
      "Error: " + option + " has values " + value1 + " and " + value2
      + " in files " + file1 + " and " + file2 + ", respectively\n"
    }

    /** The same complaint with the two sides exchanged. */
    function Swap(): Report
    {
      Report(option, value2, value1, file2, file1)
    }
  }

  /** How `std::cerr << v` renders a value: standard error is not switched to
      `std::boolalpha`, so a flag prints as `1` or `0`. */
  function ShowPlain(v: Value): string
  {
    match v
    case Flag(b) => if b then "1" else "0"
    case _ => ShowValue(v)
  }

  /** Two values of one kind print alike exactly when they are equal, so a
      report never shows the same text on both sides. */
  lemma ShowPlainInjective(v: Value, w: Value)
    requires KindOf(v) == KindOf(w)
    ensures ShowPlain(v) == ShowPlain(w) <==> v == w
  {
    if ShowPlain(v) == ShowPlain(w) {
      match v
      case Size(n) =>
        ReadUnsignedShown(n, []);
        ReadUnsignedShown(w.n, []);
        assert ShowNat(n) + [] == ShowNat(n);
        assert ShowNat(w.n) + [] == ShowNat(w.n);
      case Int(i) =>
        ReadSignedShown(i);
        ReadSignedShown(w.i);
      case Flag(b) =>
        assert "1" != "0";
      case Word(s) =>
    }
  }

  /** `areequals_printerrifnot` for field `f`: nothing when the two values are
      equal, else one report naming the field, both values and both files. */
  function CompareField(a1: SketchArgs, a2: SketchArgs, f: Field, file1: string, file2: string): (r: seq<Report>)
    ensures |r| <= 1
    ensures r == [] <==> Get(a1, f) == Get(a2, f)
    ensures r != [] ==> r[0].option == Name(f) && r[0].file1 == file1 && r[0].file2 == file2
    ensures r != [] ==> r[0].value1 == ShowPlain(Get(a1, f)) && r[0].value2 == ShowPlain(Get(a2, f))
    ensures r != [] ==> r[0].value1 != r[0].value2
  {
    var v1 := Get(a1, f);
    var v2 := Get(a2, f);
    if v1 != v2 then
      ShowPlainInjective(v1, v2);
      [Report(Name(f), ShowPlain(v1), ShowPlain(v2), file1, file2)]
    else []
  }

  /** The fields of `fs` on which the configurations differ, in order. */
  ghost function Differing(a1: SketchArgs, a2: SketchArgs, fs: seq<Field>): seq<Field>
  {
    if |fs| == 0 then []
    else (if Get(a1, fs[0]) != Get(a2, fs[0]) then [fs[0]] else []) + Differing(a1, a2, fs[1..])
  }

  /** The comparisons of `verifycompatible`: every field is compared, so every
      difference is reported, one report per differing field, in order. */
  function Mismatches(a1: SketchArgs, a2: SketchArgs, fs: seq<Field>, file1: string, file2: string): (r: seq<Report>)
    ensures |r| == |Differing(a1, a2, fs)|
    ensures forall k :: 0 <= k < |r| ==> r[k].option == Name(Differing(a1, a2, fs)[k])
  {
    if |fs| == 0 then []
    else CompareField(a1, a2, fs[0], file1, file2) + Mismatches(a1, a2, fs[1..], file1, file2)
  }

  /** Nothing is reported exactly when the configurations agree on every field
      of `fs`. */
  lemma {:induction false} MismatchesNone(a1: SketchArgs, a2: SketchArgs, fs: seq<Field>, file1: string, file2: string)
    ensures Mismatches(a1, a2, fs, file1, file2) == [] <==> forall f :: f in fs ==> Get(a1, f) == Get(a2, f)
    decreases |fs|
  {
    if |fs| > 0 {
      MismatchesNone(a1, a2, fs[1..], file1, file2);
      assert forall f :: f in fs ==> f == fs[0] || f in fs[1..];
    }
  }

  /** `verifycompatible`: success, or the reports written before `exit(2)`. */
  function VerifyCompatible(a1: SketchArgs, a2: SketchArgs, file1: string, file2: string): (r: Result<(), seq<Report>>)
    ensures r.Ok? <==> Compatible(a1, a2)
    ensures r.Err? ==> |r.error| > 0
    ensures r.Err? ==> forall rep <- r.error :: rep.file1 == file1 && rep.file2 == file2
  {
    var reports := Mismatches(a1, a2, ComparedFields, file1, file2);
    CompatibleByField(a1, a2);
    MismatchesNone(a1, a2, ComparedFields, file1, file2);
    MismatchFiles(a1, a2, ComparedFields, file1, file2);
    if reports == [] then Ok(()) else Err(reports)
  }

  /** Agreeing on each compared field, looked up by name, is agreeing on the
      fields `Compatible` lists. */
  lemma CompatibleByField(a1: SketchArgs, a2: SketchArgs)
    ensures Compatible(a1, a2) <==> forall f :: f in ComparedFields ==> Get(a1, f) == Get(a2, f)
  {
    if !Compatible(a1, a2) {
      if a1.bbits != a2.bbits { assert ComparedFields[0] == BBits && Get(a1, BBits) != Get(a2, BBits); }
      else if a1.iscasepreserved != a2.iscasepreserved { assert ComparedFields[1] == IsCasePreserved && Get(a1, IsCasePreserved) != Get(a2, IsCasePreserved); }
      else if a1.isstrandpreserved != a2.isstrandpreserved { assert ComparedFields[2] == IsStrandPreserved && Get(a1, IsStrandPreserved) != Get(a2, IsStrandPreserved); }
      else if a1.kmerlen != a2.kmerlen { assert ComparedFields[3] == KmerLen && Get(a1, KmerLen) != Get(a2, KmerLen); }
      else if a1.minhashtype != a2.minhashtype { assert ComparedFields[4] == MinhashType && Get(a1, MinhashType) != Get(a2, MinhashType); }
      else if a1.randseed != a2.randseed { assert ComparedFields[5] == RandSeed && Get(a1, RandSeed) != Get(a2, RandSeed); }
      else { assert ComparedFields[6] == SketchSize64 && Get(a1, SketchSize64) != Get(a2, SketchSize64); }
    }
  }

  lemma {:induction false} MismatchFiles(a1: SketchArgs, a2: SketchArgs, fs: seq<Field>, file1: string, file2: string)
    ensures forall rep <- Mismatches(a1, a2, fs, file1, file2) :: rep.file1 == file1 && rep.file2 == file2
    decreases |fs|
  {
    if |fs| > 0 {
      MismatchFiles(a1, a2, fs[1..], file1, file2);
    }
  }

  /** Comparing in the other order reports the same fields with the sides
      exchanged. */
  lemma {:induction false} MismatchesSwap(a1: SketchArgs, a2: SketchArgs, fs: seq<Field>, file1: string, file2: string)
    ensures var r := Mismatches(a1, a2, fs, file1, file2);
      var s := Mismatches(a2, a1, fs, file2, file1);
      |s| == |r| && forall k :: 0 <= k < |r| ==> s[k] == r[k].Swap()
    decreases |fs|
  {
    if |fs| > 0 {
      MismatchesSwap(a1, a2, fs[1..], file1, file2);
    }
  }

  /** `verifycompatible` is symmetric: it fails for both orders or for neither,
      and the reports correspond. */
  lemma VerifyCompatibleSwap(a1: SketchArgs, a2: SketchArgs, file1: string, file2: string)
    ensures VerifyCompatible(a1, a2, file1, file2).Ok? <==> VerifyCompatible(a2, a1, file2, file1).Ok?
    ensures var r := VerifyCompatible(a1, a2, file1, file2);
      var s := VerifyCompatible(a2, a1, file2, file1);
      r.Err? ==> |s.error| == |r.error| && forall k :: 0 <= k < |r.error| ==> s.error[k] == r.error[k].Swap()
  {
    MismatchesSwap(a1, a2, ComparedFields, file1, file2);
  }

  lemma OnlyBBitsMismatch(a: SketchArgs, x: U64, y: U64, file1: string, file2: string)
    requires x != y
    ensures Mismatches(a.(bbits := x), a.(bbits := y), ComparedFields, file1, file2)
      == [Report(Name(BBits), ShowNat(x), ShowNat(y), file1, file2)]
  {
    var a1 := a.(bbits := x);
    var a2 := a.(bbits := y);
    var rest := ComparedFields[1..];
    assert BBits !in rest;
    OthersAgree(a, x, y);
    MismatchesNone(a1, a2, rest, file1, file2);
    var rep := BBitsReport(a1, a2, x, y, file1, file2);
    assert ComparedFields == [BBits] + rest;
    assert Mismatches(a1, a2, ComparedFields, file1, file2) == [rep] + [];
  }

  /** Changing `--bbits` changes no other field. */
  lemma OthersAgree(a: SketchArgs, x: U64, y: U64)
    ensures forall f :: f != BBits ==> Get(a.(bbits := x), f) == Get(a.(bbits := y), f)
  {
  }

  lemma BBitsReport(a1: SketchArgs, a2: SketchArgs, x: U64, y: U64, file1: string, file2: string) returns (rep: Report)
    requires a1.bbits == x && a2.bbits == y && x != y
    ensures rep == Report(Name(BBits), ShowNat(x), ShowNat(y), file1, file2)
    ensures CompareField(a1, a2, BBits, file1, file2) == [rep]
  {
    rep := Report(Name(BBits), ShowNat(x), ShowNat(y), file1, file2);
    var r := CompareField(a1, a2, BBits, file1, file2);
    assert Get(a1, BBits) == Size(x) && Get(a2, BBits) == Size(y);
    assert r != [] && |r| == 1;
    assert r[0] == rep;
  }

  /** Configurations differing only in `--bbits` draw exactly one report, on
      `--bbits`, showing both values. */
  lemma OnlyBBitsDiffers(a: SketchArgs, x: U64, y: U64, file1: string, file2: string)
    requires x != y
    ensures VerifyCompatible(a.(bbits := x), a.(bbits := y), file1, file2)
      == Err([Report(Name(BBits), ShowNat(x), ShowNat(y), file1, file2)])
  {
    OnlyBBitsMismatch(a, x, y, file1, file2);
    VerifyCompatibleReports(a.(bbits := x), a.(bbits := y), file1, file2);
  }

  lemma VerifyCompatibleReports(a1: SketchArgs, a2: SketchArgs, file1: string, file2: string)
    ensures var m := Mismatches(a1, a2, ComparedFields, file1, file2);
      VerifyCompatible(a1, a2, file1, file2) == if m == [] then Ok(()) else Err(m)
  {
  }

  /** The defaults with `--bbits=10` against the defaults with `--bbits=12`. */
  lemma BBitsExample(now: int, file1: string, file2: string)
    ensures var d := DefaultSketchArgs(now);
      VerifyCompatible(d.(bbits := 10), d.(bbits := 12), file1, file2)
        == Err([Report("--bbits", "10", "12", file1, file2)])
  {
    assert ShowNat(10) == "10";
    assert ShowNat(12) == "12";
    assert Name(BBits) == "--bbits";
    OnlyBBitsDiffers(DefaultSketchArgs(now), 10, 12, file1, file2);
  }
}

=== FILE: dist.dfy ===
/** The `dist` command's configuration (`Distargs`) and its option parser: the
    one-token classifier `_parse` and the driver `parse`, which insists on one or
    two sketches once the options are applied. */
module Dist {
  import opened Results
  import opened Streams
  import opened Options

  /** The options of `Distargs` that carry a value. */
  datatype DistField = IThres | MThres | NNeighbors | NThreads | OutFname | PThres

  /** The key that sets the field. */
  function Name(f: DistField): string
  {
    match f
    case IThres => "--ithres"
    case MThres => "--mthres"
    case NNeighbors => "--nneighbors"
    case NThreads => "--nthreads"
    case OutFname => "--outfname"
    case PThres => "--pthres"
  }

  /** The field a key names, looked up in the order of the `if` chain of
      `Distargs::_parse`. */
  function FieldNamed(key: string): (r: Option<DistField>)
    ensures r.Some? ==> Name(r.value) == key
    ensures r.None? ==> forall f :: Name(f) != key
  {
    if key == "--ithres" then Some(IThres)
    else if key == "--mthres" then Some(MThres)
    else if key == "--nneighbors" then Some(NNeighbors)
    else if key == "--nthreads" then Some(NThreads)
    else if key == "--outfname" then Some(OutFname)
    else if key == "--pthres" then Some(PThres)
    else None
  }

  /** No two fields share a key, so each key names exactly its field. */
  lemma FieldNamedName(f: DistField)
    ensures FieldNamed(Name(f)) == Some(f)
  {
  }

  /** Every key is an option key: it starts with `--`, has no `=`, and is not a
      help request. */
  lemma NameShape(f: DistField)
    ensures OptionMark <= Name(f) && '=' !in Name(f)
    ensures !(HelpFlag <= Name(f))
  {
    assert Name(f)[2] != HelpFlag[2];
  }

  /** `issval >> x` for a `double` `x`, as a function of the text: `None` when the
      extraction sets the fail bit. How a decimal becomes a `double` is not part
      of this model, so the reader is a parameter and every statement below holds
      for any reader. */
  type FloatReader = string -> Option<real>

  /** The value of a `Distargs` option: a `size_t` or `std::string` option holds a
      `Value` like the `sketch` options, a `double` option the number it holds. */
  datatype Setting = Plain(v: Value) | Real(x: real)

  /** The values field `f` can hold: the shape of its C++ type. */
  predicate Fits(f: DistField, s: Setting)
  {
    match f
    case MThres => s.Real?
    case PThres => s.Real?
    case OutFname => s.Plain? && s.v.Word?
    case _ => s.Plain? && s.v.Size?
  }

  /** `issval >> field` for field `f`, where `issval` holds `text`. */
  function ReadSetting(f: DistField, readFloat: FloatReader, text: string): (r: Option<Setting>)
    ensures r.Some? ==> Fits(f, r.value)
    ensures f.OutFname? ==> (r.Some? <==> ReadWord(text).Some?)
    ensures f.OutFname? && r.Some? ==> r.value == Plain(Word(ReadWord(text).value))
    ensures (f.IThres? || f.NNeighbors? || f.NThreads?) ==> (r.Some? <==> ReadUnsigned(text).Some?)
    ensures (f.IThres? || f.NNeighbors? || f.NThreads?) && r.Some? ==>
      r.value == Plain(Size(ReadUnsigned(text).value))
    ensures (f.MThres? || f.PThres?) ==> (r.Some? <==> readFloat(text).Some?)
    ensures (f.MThres? || f.PThres?) && r.Some? ==> r.value == Real(readFloat(text).value)
  {
    match f
    case MThres => (match readFloat(text) case Some(x) => Some(Real(x)) case None => None)
    case PThres => (match readFloat(text) case Some(x) => Some(Real(x)) case None => None)
    case OutFname => (match ReadValue(WordKind, text) case Some(v) => Some(Plain(v)) case None => None)
    case _ => (match ReadValue(SizeKind, text) case Some(v) => Some(Plain(v)) case None => None)
  }

  /** A `size_t` or word value printed by `<<` is read back unchanged by the
      extraction for its field. */
  lemma ReadSettingShown(f: DistField, readFloat: FloatReader, v: Value)
    requires Fits(f, Plain(v)) && Persistable(v)
    ensures ReadSetting(f, readFloat, ShowValue(v)) == Some(Plain(v))
  {
    ReadShownValue(v);
    match f
    case OutFname =>
      assert KindOf(v) == WordKind;
    case IThres =>
      assert KindOf(v) == SizeKind;
    case NNeighbors =>
      assert KindOf(v) == SizeKind;
    case NThreads =>
      assert KindOf(v) == SizeKind;
  }

  /** `ReadSetting` for field `f` as a function of the text. */
  function SettingReader(f: DistField, readFloat: FloatReader): string -> Option<Setting>
  {
    text => ReadSetting(f, readFloat, text)
  }

  /** The configuration of one `dist` run. */
  datatype DistArgs = DistArgs(
    infnames: seq<string>,
    ithres: U64,
    mthres: real,
    nneighbors: U64,
    nthreads: U64,
    outfname: string,
    pthres: real)

  /** A freshly constructed `Distargs`: the output goes to standard output. */
  function DefaultDistArgs(): (a: DistArgs)
    ensures a.infnames == [] && a.outfname == "-"
  {
    DistArgs([], 2, 2.5, 0, 1, "-", 1.0001)
  }

  /** The value of field `f`. */
  function Get(a: DistArgs, f: DistField): (s: Setting)
    ensures Fits(f, s)
  {
    match f
    case IThres => Plain(Size(a.ithres))
    case MThres => Real(a.mthres)
    case NNeighbors => Plain(Size(a.nneighbors))
    case NThreads => Plain(Size(a.nthreads))
    case OutFname => Plain(Word(a.outfname))
    case PThres => Real(a.pthres)
  }

  /** `a` with field `f` assigned: that field reads `s` afterwards and nothing
      else changes. */
  function Set(a: DistArgs, f: DistField, s: Setting): (b: DistArgs)
    requires Fits(f, s)
    ensures Get(b, f) == s
    ensures b.infnames == a.infnames
    ensures forall g :: g != f ==> Get(b, g) == Get(a, g)
  {
    match f
    case IThres => a.(ithres := s.v.n)
    case MThres => a.(mthres := s.x)
    case NNeighbors => a.(nneighbors := s.v.n)
    case NThreads => a.(nthreads := s.v.n)
    case OutFname => a.(outfname := s.v.w)
    case PThres => a.(pthres := s.x)
  }

  /** Two configurations with the same input names and the same value in every
      field are the same configuration. */
  lemma SameFields(x: DistArgs, y: DistArgs)
    requires x.infnames == y.infnames
    requires forall f :: Get(x, f) == Get(y, f)
    ensures x == y
  {
    assert Get(x, IThres) == Get(y, IThres);
    assert Get(x, MThres) == Get(y, MThres);
    assert Get(x, NNeighbors) == Get(y, NNeighbors);
    assert Get(x, NThreads) == Get(y, NThreads);
    assert Get(x, OutFname) == Get(y, OutFname);
    assert Get(x, PThres) == Get(y, PThres);
  }

  /** Replacing the input names leaves every field as it was. */
  lemma InputsLeaveFields(a: DistArgs)
    ensures forall names: seq<string>, f :: Get(a.(infnames := names), f) == Get(a, f)
  {
  }

  /** The code `_parse` returns for `arg`, stated from the token alone: 1 for a help
      request, -1 for any other `--` key that is not a field (there is no comment
      key here), -2 for a field whose value does not read, and 0 otherwise. */
  ghost function DistCode(arg: string, readFloat: FloatReader): int
  {
    if HelpFlag <= arg then 1
    else if IsPositional(arg) then 0
    else if exists f :: Name(f) == OptionKey(arg) && ReadSetting(f, readFloat, OptionText(arg)).None? then -2
    else if exists f :: Name(f) == OptionKey(arg) then 0
    else -1
  }

  /** `Distargs::_parse`: classifies one token and, when it is accepted, applies
      it. A help request wins over everything; an input name is appended; a field
      key sets that field alone. */
  function ParseDistToken(a: DistArgs, arg: string, readFloat: FloatReader): (r: Verdict<DistArgs>)
    ensures !(HelpFlag <= arg) && IsPositional(arg) ==>
      r == Accepted(a.(infnames := a.infnames + [arg]))
    ensures forall f :: Name(f) == OptionKey(arg) && r.Accepted? ==>
      && r.args.infnames == a.infnames
      && ReadSetting(f, readFloat, OptionText(arg)) == Some(Get(r.args, f))
      && (forall g :: g != f ==> Get(r.args, g) == Get(a, g))
  {
    var key := OptionKey(arg);
    if HelpFlag <= arg then HelpRequested
    else match FieldNamed(key)
      case Some(f) =>
        NameShape(f);
        assert forall g :: Name(g) == key ==> g == f by {
          FieldNamedName(f);
          forall g | Name(g) == key
            ensures g == f
          {
            FieldNamedName(g);
          }
        }
        (match ReadSetting(f, readFloat, OptionText(arg))
         case Some(s) => Accepted(Set(a, f, s))
         case None => BadValue)
      case None =>
        if !(OptionMark <= key) then Accepted(a.(infnames := a.infnames + [arg]))
        else UnknownOption
  }

  /** The outcome of `_parse` depends on the token alone, never on the
      configuration it is applied to. */
  lemma ParseDistTokenCode(a: DistArgs, arg: string, readFloat: FloatReader)
    ensures ParseDistToken(a, arg, readFloat).Code() == DistCode(arg, readFloat)
  {
    var key := OptionKey(arg);
    if !(HelpFlag <= arg) {
      match FieldNamed(key)
      case Some(f) =>
        NameShape(f);
        assert !IsPositional(arg);
        FieldNamedName(f);
        forall g | Name(g) == key
          ensures g == f
        {
          FieldNamedName(g);
        }
      case None =>
    }
  }

  /** Unlike `sketch`, `dist` has no comment key: `--COMMENT=...` is an
      unrecognized option. */
  lemma CommentIsUnknown(a: DistArgs, text: string, readFloat: FloatReader)
    ensures ParseDistToken(a, CommentKey + "=" + text, readFloat) == UnknownOption
  {
    var arg := CommentKey + "=" + text;
    IndexOfFirst(CommentKey, '=', text);
    assert OptionKey(arg) == CommentKey;
    assert arg[2] != HelpFlag[2];
    assert OptionMark <= CommentKey;
  }

  /** Token `i` is the first one `_parse` does not accept. */
  ghost predicate FirstRejectedAt(tokens: seq<string>, readFloat: FloatReader, i: int)
  {
    && 0 <= i < |tokens| && DistCode(tokens[i], readFloat) != 0
    && (forall j :: 0 <= j < i ==> DistCode(tokens[j], readFloat) == 0)
  }

  /** `e` is how the first token with a non-zero code stops the command. */
  ghost predicate FirstRejection(tokens: seq<string>, readFloat: FloatReader, e: CliError)
  {
    exists i :: FirstRejectedAt(tokens, readFloat, i)
      && e == Complaint(DistCode(tokens[i], readFloat), tokens[i])
  }

  lemma FirstRejectionLater(tokens: seq<string>, readFloat: FloatReader, r: Result<DistArgs, CliError>)
    requires |tokens| > 0 && DistCode(tokens[0], readFloat) == 0
    requires r.Err? ==> FirstRejection(tokens[1..], readFloat, r.error)
    ensures r.Err? ==> FirstRejection(tokens, readFloat, r.error)
  {
    if r.Err? {
      var i :| FirstRejectedAt(tokens[1..], readFloat, i)
        && r.error == Complaint(DistCode(tokens[1..][i], readFloat), tokens[1..][i]);
      forall j | 0 < j < i + 1
        ensures DistCode(tokens[j], readFloat) == 0
      {
        assert tokens[j] == tokens[1..][j - 1];
      }
      assert tokens[i + 1] == tokens[1..][i];
      assert FirstRejectedAt(tokens, readFloat, i + 1);
    }
  }

  /** An accepted token adds itself to the input names exactly when it is one. */
  lemma PositionalStep(a: DistArgs, arg: string, readFloat: FloatReader)
    requires ParseDistToken(a, arg, readFloat).Accepted?
    ensures ParseDistToken(a, arg, readFloat).args.infnames
      == a.infnames + (if IsPositional(arg) then [arg] else [])
  {
    if HelpFlag <= arg {
      HelpIsNotPositional(arg);
    } else if !IsPositional(arg) {
      match FieldNamed(OptionKey(arg))
      case Some(f) =>
      case None =>
    }
  }

  /** The loop of `Distargs::parse` over the option tokens: every token is applied
      in order, and the first rejected one stops the command with `usage`. */
  function ParseDistTokens(a: DistArgs, tokens: seq<string>, readFloat: FloatReader): (r: Result<DistArgs, CliError>)
    ensures r.Ok? <==> forall i :: 0 <= i < |tokens| ==> DistCode(tokens[i], readFloat) == 0
    ensures r.Ok? ==> r.value.infnames == a.infnames + Positionals(tokens)
    ensures r.Err? ==> FirstRejection(tokens, readFloat, r.error)
    decreases |tokens|
  {
    if |tokens| == 0 then Ok(a)
    else
      var v := ParseDistToken(a, tokens[0], readFloat);
      ParseDistTokenCode(a, tokens[0], readFloat);
      if v.Accepted? then
        var r := ParseDistTokens(v.args, tokens[1..], readFloat);
        FirstRejectionLater(tokens, readFloat, r);
        PositionalStep(a, tokens[0], readFloat);
        r
      else
        assert FirstRejection(tokens, readFloat, Complaint(v.Code(), tokens[0])) by {
          assert FirstRejectedAt(tokens, readFloat, 0);
        }
        Err(Complaint(v.Code(), tokens[0]))
  }

  /** The value field `f` holds after the option tokens, found from the end: what
      the last token with the field's key reads, or the value it had before. */
  function DistSetting(a: DistArgs, f: DistField, readFloat: FloatReader, tokens: seq<string>): Setting
  {
    LastAssigned(Get(a, f), Name(f), SettingReader(f, readFloat), tokens)
  }

  /** One accepted token assigns field `f` exactly when its key is the field's. */
  lemma TokenAssigns(a: DistArgs, t: string, f: DistField, readFloat: FloatReader)
    requires ParseDistToken(a, t, readFloat).Accepted?
    ensures Get(ParseDistToken(a, t, readFloat).args, f) == DistSetting(a, f, readFloat, [t])
  {
    var b := ParseDistToken(a, t, readFloat).args;
    LastAssignedOne(Get(a, f), Name(f), SettingReader(f, readFloat), t);
    if OptionKey(t) == Name(f) {
      assert ReadSetting(f, readFloat, OptionText(t)) == Some(Get(b, f));
      assert SettingReader(f, readFloat)(OptionText(t)) == Some(Get(b, f));
    } else {
      assert Assigned(Name(f), SettingReader(f, readFloat), t) == None;
      OtherKeyKeeps(a, t, f, readFloat);
    }
  }

  /** An accepted token with another key leaves field `f` alone. */
  lemma OtherKeyKeeps(a: DistArgs, t: string, f: DistField, readFloat: FloatReader)
    requires ParseDistToken(a, t, readFloat).Accepted? && OptionKey(t) != Name(f)
    ensures Get(ParseDistToken(a, t, readFloat).args, f) == Get(a, f)
  {
    var key := OptionKey(t);
    ParseDistTokenCode(a, t, readFloat);
    if HelpFlag <= t {
    } else if IsPositional(t) {
      InputsLeaveFields(a);
    } else {
      match FieldNamed(key)
      case Some(g) =>
      case None =>
    }
  }

  /** After a run of accepted tokens every field holds what the last token naming
      it assigned, or its earlier value when none does. */
  lemma {:induction false} ParseDistTokensFields(a: DistArgs, tokens: seq<string>, readFloat: FloatReader)
    requires ParseDistTokens(a, tokens, readFloat).Ok?
    ensures forall f :: Get(ParseDistTokens(a, tokens, readFloat).value, f) == DistSetting(a, f, readFloat, tokens)
    decreases |tokens|
  {
    if |tokens| == 0 {
    } else {
      var t := tokens[0];
      var v := ParseDistToken(a, t, readFloat);
      ParseDistTokenCode(a, t, readFloat);
      assert DistCode(tokens[0], readFloat) == 0;
      assert v.Accepted?;
      var final := ParseDistTokens(v.args, tokens[1..], readFloat);
      assert ParseDistTokens(a, tokens, readFloat) == final;
      ParseDistTokensFields(v.args, tokens[1..], readFloat);
      assert tokens == [t] + tokens[1..];
      forall f
        ensures Get(final.value, f) == DistSetting(a, f, readFloat, tokens)
      {
        SettingAfter(a, t, tokens[1..], f, readFloat);
      }
    }
  }

  /** What field `f` holds after `[t] + rest` is what it holds after `rest`,
      starting from the configuration `t` produced. */
  lemma SettingAfter(a: DistArgs, t: string, rest: seq<string>, f: DistField, readFloat: FloatReader)
    requires ParseDistToken(a, t, readFloat).Accepted?
    ensures DistSetting(a, f, readFloat, [t] + rest)
      == DistSetting(ParseDistToken(a, t, readFloat).args, f, readFloat, rest)
  {
    TokenAssigns(a, t, f, readFloat);
    LastAssignedAppend(Get(a, f), Name(f), SettingReader(f, readFloat), [t], rest);
  }

  /** `Distargs::parse`: the options after the subcommand are applied, and then
      exactly one or two sketch names (query and optional target) must have been
      collected; otherwise the command stops with `usage`. */
  function ParseDistArgs(init: DistArgs, argv: seq<string>, readFloat: FloatReader): (r: Result<DistArgs, CliError>)
    ensures var t := ParseDistTokens(init, CommandTokens(argv), readFloat);
      t.Err? ==> r == t
    ensures var tokens := CommandTokens(argv);
      var names := init.infnames + Positionals(tokens);
      r.Ok? <==> (forall i :: 0 <= i < |tokens| ==> DistCode(tokens[i], readFloat) == 0)
                 && (|names| == 1 || |names| == 2)
    ensures var tokens := CommandTokens(argv);
      r.Err? ==> r.error == WrongArgumentCount || FirstRejection(tokens, readFloat, r.error)
    ensures var tokens := CommandTokens(argv);
      (forall i :: 0 <= i < |tokens| ==> DistCode(tokens[i], readFloat) == 0) && r.Err? ==>
        r.error == WrongArgumentCount
    ensures r.Ok? ==> r.value.infnames == init.infnames + Positionals(CommandTokens(argv))
    ensures r.Ok? ==> forall f :: Get(r.value, f) == DistSetting(init, f, readFloat, CommandTokens(argv))
  {
    match ParseDistTokens(init, CommandTokens(argv), readFloat)
    case Err(e) => Err(e)
    case Ok(a) =>
      ParseDistTokensFields(init, CommandTokens(argv), readFloat);
      if |a.infnames| != 1 && |a.infnames| != 2 then Err(WrongArgumentCount) else Ok(a)
  }

  // ---------------------------------------------------------------------------
  // Examples

  /** A token without `=` is its own key. */
  lemma WholeKey(arg: string)
    requires '=' !in arg
    ensures OptionKey(arg) == arg
  {
  }

  /** `dist --mthres=0.2 q.sketch`, the option example of the usage text, with a
      reader that takes `0.2` for the number 0.2: the query is compared with
      itself and only `mthres` changes. */
  lemma MThresExample(argv: seq<string>, readFloat: FloatReader)
    requires argv == ["bindash", "dist", "--mthres=0.2", "q.sketch"]
    requires readFloat("0.2") == Some(0.2)
    ensures ParseDistArgs(DefaultDistArgs(), argv, readFloat)
      == Ok(DefaultDistArgs().(mthres := 0.2, infnames := ["q.sketch"]))
  {
    assert '=' !in "q.sketch" && "q.sketch"[0] != '-';
    var d := DefaultDistArgs();
    var tokens := CommandTokens(argv);
    assert tokens == ["--mthres=0.2", "q.sketch"];
    var b := MThresPointTwo(d, readFloat);
    var c := InputStep(b, "q.sketch", readFloat);
    AcceptedToken(d, tokens, readFloat, b);
    AcceptedToken(b, tokens[1..], readFloat, c);
    assert tokens[1..][1..] == [];
    assert c.infnames == ["q.sketch"];
  }

  /** An accepted first token hands the rest to the configuration it produced. */
  lemma AcceptedToken(a: DistArgs, tokens: seq<string>, readFloat: FloatReader, b: DistArgs)
    requires |tokens| > 0 && ParseDistToken(a, tokens[0], readFloat) == Accepted(b)
    ensures ParseDistTokens(a, tokens, readFloat) == ParseDistTokens(b, tokens[1..], readFloat)
  {
  }

  lemma MThresPointTwo(a: DistArgs, readFloat: FloatReader) returns (b: DistArgs)
    requires readFloat("0.2") == Some(0.2)
    ensures ParseDistToken(a, "--mthres=0.2", readFloat) == Accepted(b)
    ensures b == a.(mthres := 0.2)
  {
    assert "--mthres=0.2" == Name(MThres) + "=" + "0.2";
    b := OptionStep(a, MThres, "0.2", readFloat, Real(0.2));
  }

  /** A well-formed `--name=text` token for field `f` sets that field to `s`. */
  lemma OptionStep(a: DistArgs, f: DistField, text: string, readFloat: FloatReader, s: Setting) returns (b: DistArgs)
    requires '\n' !in text && ReadSetting(f, readFloat, text) == Some(s)
    ensures ParseDistToken(a, Name(f) + "=" + text, readFloat) == Accepted(b)
    ensures b == Set(a, f, s)
  {
    var arg := Name(f) + "=" + text;
    NameShape(f);
    OptionLine(Name(f), text);
    FieldNamedName(f);
    assert !(HelpFlag <= arg) by {
      assert arg[2] == Name(f)[2];
    }
    assert FieldNamed(OptionKey(arg)) == Some(f);
    assert ReadSetting(f, readFloat, OptionText(arg)) == Some(s);
    b := Set(a, f, s);
  }

  /** A token without `=` or a leading `--` is appended to the inputs. */
  lemma InputStep(a: DistArgs, arg: string, readFloat: FloatReader) returns (b: DistArgs)
    requires '=' !in arg && |arg| > 0 && arg[0] != '-'
    ensures ParseDistToken(a, arg, readFloat) == Accepted(b)
    ensures b == a.(infnames := a.infnames + [arg])
  {
    assert OptionKey(arg) == arg;
    assert arg[0] != HelpFlag[0];
    b := a.(infnames := a.infnames + [arg]);
  }

  /** `dist --COMMENT=x q.sketch`: the comment key of `sketch` is rejected. */
  lemma CommentExample(argv: seq<string>, readFloat: FloatReader)
    requires argv == ["bindash", "dist", "--COMMENT=x", "q.sketch"]
    ensures ParseDistArgs(DefaultDistArgs(), argv, readFloat) == Err(UnrecognizedOption("--COMMENT=x"))
  {
    var tokens := CommandTokens(argv);
    assert tokens[0] == CommentKey + "=" + "x";
    CommentIsUnknown(DefaultDistArgs(), "x", readFloat);
  }

  /** Three sketch names are one too many. */
  lemma ThreeSketchesExample(argv: seq<string>, readFloat: FloatReader)
    requires argv == ["bindash", "dist", "a", "b", "c"]
    ensures ParseDistArgs(DefaultDistArgs(), argv, readFloat) == Err(WrongArgumentCount)
  {
    assert "a"[0] != '-' && "b"[0] != '-' && "c"[0] != '-';
    var d := DefaultDistArgs();
    var tokens := CommandTokens(argv);
    assert tokens == ["a", "b", "c"];
    var x := InputStep(d, "a", readFloat);
    var y := InputStep(x, "b", readFloat);
    var z := InputStep(y, "c", readFloat);
    AcceptedToken(d, tokens, readFloat, x);
    AcceptedToken(x, tokens[1..], readFloat, y);
    assert tokens[1..][1..] == tokens[2..];
    AcceptedToken(y, tokens[2..], readFloat, z);
    assert tokens[2..][1..] == [];
    assert |z.infnames| == 3;
  }

  /** Without a sketch name there is nothing to compare. */
  lemma NoSketchExample(argv: seq<string>, readFloat: FloatReader)
    requires argv == ["bindash", "dist"]
    ensures ParseDistArgs(DefaultDistArgs(), argv, readFloat) == Err(WrongArgumentCount)
  {
  }
}

=== FILE: entities.dfy ===
/** `parse_metaf`: resolving the input descriptor lines into genomes (entities).
    A line is `file<TAB>genome<TAB>count<TAB>genome<TAB>count...`, or a bare file
    name, which makes the file one genome of unknown sequence count. Genome
    names are unique across all lines and numbered densely in the order met. */
module Entities {
  import opened Results
  import opened Streams

  const Tab: char := '\t'

  /** The count recorded for a bare file: `SIZE_MAX - 1`. */
  const UnknownCount: U64 := U64Max - 1

  /** One genome of a file: its identifier and its number of sequences. */
  datatype Group = Group(entityId: nat, count: U64)

  /** The three output vectors: the groups of each file, the name of each file,
      and the name of each genome by identifier. */
  datatype EntityMap = EntityMap(fileGroups: seq<seq<Group>>, fileNames: seq<string>, entityNames: seq<string>)

  /** Why resolution stops. A malformed line fails one of the `assert`s
      of `parse_metaf`; the two duplicate cases call `exit(-8)` and `exit(-16)`. */
  datatype MetaError =
    | MalformedLine(line: string)
    | DuplicateGenome(name: string)
    | DuplicateGenomeAndFile(name: string)

  /** A genome name and its sequence count as read and checked: `None` when
      the count text fails one of the `assert`s of `parse_metaf`. */
  datatype Entry = Entry(name: string, count: Option<U64>)

  // ---------------------------------------------------------------------------
  // The reading of one line

  /** Consecutive (name, count) pairs; a name without a count has none: the
      failed `getline` leaves `nseqs_str` empty, and reading a count from empty
      text fails (`MissingCountFails`). */
  function Entries(rest: seq<string>): (r: seq<Entry>)
    ensures |r| == (|rest| + 1) / 2
    ensures forall k :: 0 <= k < |r| ==>
      && r[k].name == rest[2 * k]
      && r[k].count == (if 2 * k + 1 < |rest| then PositiveCount(rest[2 * k + 1]) else None)
    decreases |rest|
  {
    if |rest| == 0 then []
    else if |rest| == 1 then [Entry(rest[0], None)]
    else
      var tail := Entries(rest[2..]);
      assert forall k :: 1 <= k < 1 + |tail| ==> rest[2..][2 * (k - 1)] == rest[2 * k];
      assert forall k :: 1 <= k < 1 + |tail| && 2 * (k - 1) + 1 < |rest[2..]| ==>
        rest[2..][2 * (k - 1) + 1] == rest[2 * k + 1];
      [Entry(rest[0], PositiveCount(rest[1]))] + tail
  }

  /** The file name: the text before the first tab. */
  function FileName(line: string): string
  {
    var fields := Split(line, Tab);
    if |fields| == 0 then "" else fields[0]
  }

  /** The (genome, count) entries after the file name. */
  function LineEntries(line: string): seq<Entry>
  {
    var fields := Split(line, Tab);
    if |fields| == 0 then [] else Entries(fields[1..])
  }

  /** A count `>>` reads into a `size_t` without failing, and that is positive;
      `None` for anything the `assert`s of `parse_metaf` reject. */
  function PositiveCount(text: string): (r: Option<U64>)
    ensures r.Some? <==> ReadUnsigned(text).Some? && ReadUnsigned(text).value > 0
    ensures r.Some? ==> r.value == ReadUnsigned(text).value
  {
    match ReadUnsigned(text)
    case Some(n) => if n > 0 then Some(n) else None
    case None => None
  }

  /** A positive count printed by `<<` is read back, whatever non-digit text
      follows it. */
  lemma PositiveCountShown(n: U64, rest: string)
    requires n > 0
    requires |rest| == 0 || !IsDigit(rest[0])
    ensures PositiveCount(ShowNat(n) + rest) == Some(n)
  {
    ReadUnsignedShown(n, rest);
  }

  /** A zero count is read but rejected. */
  lemma ZeroCountFails()
    ensures PositiveCount("0") == None
  {
    assert ShowNat(0) + [] == "0";
    ReadUnsignedShown(0, []);
  }

  /** The text a missing count leaves behind holds no count. */
  lemma MissingCountFails()
    ensures PositiveCount("") == None
  {
    assert SkipSpace("") == "" && DigitPrefix("") == "";
  }

  /** A line the `assert`s of `parse_metaf` let through: it is not empty (the first
      `getline` extracts something) and every genome has a positive count. */
  predicate WellFormed(line: string)
  {
    && |Split(line, Tab)| > 0
    && forall e <- LineEntries(line) :: e.count.Some?
  }

  function EntryNames(es: seq<Entry>): (r: seq<string>)
    ensures |r| == |es|
    ensures forall k :: 0 <= k < |es| ==> r[k] == es[k].name
  {
    seq(|es|, k requires 0 <= k < |es| => es[k].name)
  }

  /** The genome names a line contributes: its genomes, or the file itself. */
  function LineNames(line: string): seq<string>
  {
    var es := LineEntries(line);
    if |es| == 0 then [FileName(line)] else EntryNames(es)
  }

  /** The sequence counts of those genomes. */
  function LineCounts(line: string): (r: seq<U64>)
    ensures |r| == |LineNames(line)|
  {
    var es := LineEntries(line);
    if |es| == 0 then [UnknownCount] else EntryCounts(es)
  }

  /** The counts of entries that have one (0 stands in for the others). */
  function EntryCounts(es: seq<Entry>): (r: seq<U64>)
    ensures |r| == |es|
  {
    seq(|es|, k requires 0 <= k < |es| => match es[k].count case Some(n) => n case None => 0)
  }

  // ---------------------------------------------------------------------------
  // What resolution should produce

  /** The genome names of all lines, in order. */
  function AllNames(lines: seq<string>): seq<string>
  {
    if |lines| == 0 then [] else AllNames(lines[..|lines| - 1]) + LineNames(lines[|lines| - 1])
  }

  predicate Distinct(names: seq<string>)
  {
    forall i, j :: 0 <= i < j < |names| ==> names[i] != names[j]
  }

  /** `n` occurs at least twice. */
  predicate Duplicated(n: string, names: seq<string>)
  {
    exists i, j :: 0 <= i < j < |names| && names[i] == n && names[j] == n
  }

  function Elems(names: seq<string>): set<string>
  {
    set k | 0 <= k < |names| :: names[k]
  }

  /** The groups of one line whose genomes are numbered from `base`. */
  function LineGroups(line: string, base: nat): seq<Group>
  {
    var counts := LineCounts(line);
    seq(|counts|, k requires 0 <= k < |counts| => Group(base + k, counts[k]))
  }

  /** The groups of every line: each file's genomes are numbered after all
      genomes of the lines before it. */
  function ExpectedGroups(lines: seq<string>): (r: seq<seq<Group>>)
    ensures |r| == |lines|
  {
    if |lines| == 0 then []
    else
      var init := lines[..|lines| - 1];
      ExpectedGroups(init) + [LineGroups(lines[|lines| - 1], |AllNames(init)|)]
  }

  /** The file name of every line. */
  function FileNames(lines: seq<string>): (r: seq<string>)
    ensures |r| == |lines|
  {
    if |lines| == 0 then [] else FileNames(lines[..|lines| - 1]) + [FileName(lines[|lines| - 1])]
  }

  /** The map resolution of `lines` should produce. */
  function Expected(lines: seq<string>): EntityMap
  {
    EntityMap(ExpectedGroups(lines), FileNames(lines), AllNames(lines))
  }

  // ---------------------------------------------------------------------------
  // The resolution as `parse_metaf` performs it

  /** The state of the entry loop: the genome names used (the
      `std::set` of `parse_metaf`), the genome names by identifier, and the current file's groups. */
  datatype Progress = Progress(seen: set<string>, names: seq<string>, groups: seq<Group>)

  /** The loop body for one (genome, count) entry of the current file. */
  function AddEntry(p: Progress, e: Entry, line: string): Result<Progress, MetaError>
  {
    match e.count
    case None => Err(MalformedLine(line))
    case Some(n) =>
      if e.name in p.seen then Err(DuplicateGenome(e.name))
      else Ok(Progress(p.seen + {e.name}, p.names + [e.name], p.groups + [Group(|p.names|, n)]))
  }

  /** The groups numbered from `base` for entries `es`. */
  function EntryGroups(es: seq<Entry>, base: nat): (r: seq<Group>)
    ensures |r| == |es|
  {
    var counts := EntryCounts(es);
    seq(|es|, k requires 0 <= k < |es| => Group(base + k, counts[k]))
  }

  /** The loop over the entries of the current file, stopping at the first
      failure. */
  function AddEntries(p: Progress, es: seq<Entry>, line: string): Result<Progress, MetaError>
    decreases |es|
  {
    if |es| == 0 then Ok(p)
    else
      match AddEntries(p, es[..|es| - 1], line)
      case Err(err) => Err(err)
      case Ok(q) => AddEntry(q, es[|es| - 1], line)
  }

  /** The output so far and the set of genome names used. */
  datatype Builder = Builder(out: EntityMap, seen: set<string>)

  /** `parse_metaf`'s work on one line: record the file, then its entries, or
      the file itself as a genome when the line is bare. */
  function AddLine(b: Builder, line: string): Result<Builder, MetaError>
  {
    var fields := Split(line, Tab);
    if |fields| == 0 then Err(MalformedLine(line))
    else
      var m := b.out;
      var fname := fields[0];
      var es := Entries(fields[1..]);
      if |es| > 0 then
        match AddEntries(Progress(b.seen, m.entityNames, []), es, line)
        case Err(err) => Err(err)
        case Ok(q) => Ok(Builder(EntityMap(m.fileGroups + [q.groups], m.fileNames + [fname], q.names), q.seen))
      else if fname in b.seen then Err(DuplicateGenomeAndFile(fname))
      else
        var group := Group(|m.entityNames|, UnknownCount);
        Ok(Builder(EntityMap(m.fileGroups + [[group]], m.fileNames + [fname], m.entityNames + [fname]),
                   b.seen + {fname}))
  }

  const EmptyBuilder: Builder := Builder(EntityMap([], [], []), {})

  /** The loop over all lines, stopping at the first failure. */
  function Build(lines: seq<string>): Result<Builder, MetaError>
  {
    if |lines| == 0 then Ok(EmptyBuilder)
    else
      match Build(lines[..|lines| - 1])
      case Err(err) => Err(err)
      case Ok(b) => AddLine(b, lines[|lines| - 1])
  }

  /** `parse_metaf` on the descriptor lines `infnames`. */
  function ParseMeta(infnames: seq<string>): (r: Result<EntityMap, MetaError>)
    ensures r.Ok? <==> (forall l <- infnames :: WellFormed(l)) && Distinct(AllNames(infnames))
    ensures r.Ok? ==> r.value == Expected(infnames)
    ensures r.Err? && r.error.MalformedLine? ==> r.error.line in infnames && !WellFormed(r.error.line)
    ensures r.Err? && r.error.DuplicateGenome? ==> Duplicated(r.error.name, AllNames(infnames))
    ensures r.Err? && r.error.DuplicateGenomeAndFile? ==>
      exists i :: 0 <= i < |infnames| && |LineEntries(infnames[i])| == 0
        && FileName(infnames[i]) == r.error.name && r.error.name in AllNames(infnames[..i])
  {
    BuildSpec(infnames);
    match Build(infnames)
    case Ok(b) => Ok(b.out)
    case Err(err) => Err(err)
  }

  // ---------------------------------------------------------------------------
  // Sequences of names

  lemma DistinctAppend(xs: seq<string>, ys: seq<string>)
    ensures Distinct(xs + ys) <==> Distinct(xs) && Distinct(ys) && forall y <- ys :: y !in xs
  {
    var zs := xs + ys;
    if Distinct(xs) && Distinct(ys) && forall y <- ys :: y !in xs {
      forall i, j | 0 <= i < j < |zs|
        ensures zs[i] != zs[j]
      {
        if j < |xs| {
          assert zs[i] == xs[i] && zs[j] == xs[j];
        } else if i >= |xs| {
          assert zs[i] == ys[i - |xs|] && zs[j] == ys[j - |xs|];
        } else {
          assert zs[j] == ys[j - |xs|] && zs[j] in ys;
          assert zs[i] == xs[i];
        }
      }
    }
    if Distinct(zs) {
      forall i, j | 0 <= i < j < |xs|
        ensures xs[i] != xs[j]
      {
        assert zs[i] == xs[i] && zs[j] == xs[j];
      }
      forall i, j | 0 <= i < j < |ys|
        ensures ys[i] != ys[j]
      {
        assert zs[i + |xs|] == ys[i] && zs[j + |xs|] == ys[j];
      }
      forall i, j | 0 <= i < |xs| && 0 <= j < |ys|
        ensures xs[i] != ys[j]
      {
        assert zs[i] == xs[i] && zs[j + |xs|] == ys[j];
      }
    }
  }

  lemma DuplicatedAppend(n: string, xs: seq<string>, ys: seq<string>)
    requires Duplicated(n, xs) || Duplicated(n, ys) || (n in xs && n in ys)
    ensures Duplicated(n, xs + ys)
  {
    var zs := xs + ys;
    if Duplicated(n, xs) {
      var i, j :| 0 <= i < j < |xs| && xs[i] == n && xs[j] == n;
      assert zs[i] == n && zs[j] == n;
    } else if Duplicated(n, ys) {
      var i, j :| 0 <= i < j < |ys| && ys[i] == n && ys[j] == n;
      assert zs[i + |xs|] == n && zs[j + |xs|] == n;
    } else {
      var i :| 0 <= i < |xs| && xs[i] == n;
      var j :| 0 <= j < |ys| && ys[j] == n;
      assert zs[i] == n && zs[j + |xs|] == n;
    }
  }

  lemma ElemsAppend(xs: seq<string>, ys: seq<string>)
    ensures Elems(xs + ys) == Elems(xs) + Elems(ys)
  {
    var zs := xs + ys;
    forall n | n in Elems(zs)
      ensures n in Elems(xs) + Elems(ys)
    {
      var k :| 0 <= k < |zs| && zs[k] == n;
      if k < |xs| { assert xs[k] == n; } else { assert ys[k - |xs|] == n; }
    }
    forall n | n in Elems(xs) + Elems(ys)
      ensures n in Elems(zs)
    {
      if n in Elems(xs) {
        var k :| 0 <= k < |xs| && xs[k] == n;
        assert zs[k] == n;
      } else {
        var k :| 0 <= k < |ys| && ys[k] == n;
        assert zs[k + |xs|] == n;
      }
    }
  }

  lemma ElemsSingleton(n: string)
    ensures Elems([n]) == {n}
  {
    assert [n][0] == n;
  }

  lemma ElemsMembers(xs: seq<string>)
    ensures forall n :: n in Elems(xs) <==> n in xs
  {
    forall n | n in xs
      ensures n in Elems(xs)
    {
      var k :| 0 <= k < |xs| && xs[k] == n;
    }
  }

  // ---------------------------------------------------------------------------
  // One entry, then all entries of a line

  lemma EntryNamesSnoc(init: seq<Entry>, e: Entry)
    ensures EntryNames(init + [e]) == EntryNames(init) + [e.name]
  {
  }

  lemma EntryGroupsSnoc(init: seq<Entry>, e: Entry, base: nat)
    requires e.count.Some?
    ensures EntryGroups(init + [e], base)
      == EntryGroups(init, base) + [Group(base + |init|, e.count.value)]
  {
    var es := init + [e];
    assert es[|init|] == e;
    forall k | 0 <= k < |init|
      ensures EntryGroups(es, base)[k] == EntryGroups(init, base)[k]
    {
      assert es[k] == init[k];
    }
  }

  /** The entries are accepted exactly when each has a positive count and a
      name used neither before nor earlier in the line; then the names are
      appended in order and the file's group list grows by one group per entry,
      numbered on from the names already used. */
  lemma {:induction false} AddEntriesSpec(p: Progress, es: seq<Entry>, line: string)
    requires p.seen == Elems(p.names)
    ensures var r := AddEntries(p, es, line);
      r.Ok? <==>
        && (forall e <- es :: e.count.Some?)
        && Distinct(EntryNames(es))
        && (forall n <- EntryNames(es) :: n !in p.seen)
    ensures var r := AddEntries(p, es, line);
      r.Ok? ==>
        && r.value.seen == Elems(r.value.names)
        && r.value.names == p.names + EntryNames(es)
        && r.value.groups == p.groups + EntryGroups(es, |p.names|)
    ensures var r := AddEntries(p, es, line);
      r.Err? ==>
        && !r.error.DuplicateGenomeAndFile?
        && (r.error.MalformedLine? ==> r.error.line == line && exists e <- es :: e.count.None?)
        && (r.error.DuplicateGenome? ==>
              (r.error.name in p.seen && r.error.name in EntryNames(es)) || Duplicated(r.error.name, EntryNames(es)))
    decreases |es|
  {
    if |es| == 0 {
      assert p.names + [] == p.names;
      assert p.groups + [] == p.groups;
    } else {
      var init := es[..|es| - 1];
      var e := es[|es| - 1];
      assert es == init + [e];
      AddEntriesSpec(p, init, line);
      EntryNamesSnoc(init, e);
      match AddEntries(p, init, line)
      case Err(err) =>
        if err.DuplicateGenome? && Duplicated(err.name, EntryNames(init)) {
          DuplicatedAppend(err.name, EntryNames(init), [e.name]);
        }
      case Ok(q) =>
        AddEntryAccepts(p, init, e, q, line);
        if AddEntry(q, e, line).Ok? {
          AddEntryResult(p, init, e, q, line);
        }
    }
  }

  /** The last entry is accepted exactly when it completes an acceptable list. */
  lemma AddEntryAccepts(p: Progress, init: seq<Entry>, e: Entry, q: Progress, line: string)
    requires p.seen == Elems(p.names)
    requires forall e <- init :: e.count.Some?
    requires Distinct(EntryNames(init))
    requires forall n <- EntryNames(init) :: n !in p.seen
    requires q.seen == Elems(q.names) && q.names == p.names + EntryNames(init)
    ensures var es := init + [e];
      var r := AddEntry(q, e, line);
      r.Ok? <==>
        && (forall e <- es :: e.count.Some?)
        && Distinct(EntryNames(es))
        && (forall n <- EntryNames(es) :: n !in p.seen)
    ensures var es := init + [e];
      var r := AddEntry(q, e, line);
      r.Err? ==>
        && !r.error.DuplicateGenomeAndFile?
        && (r.error.MalformedLine? ==> r.error.line == line && exists e <- es :: e.count.None?)
        && (r.error.DuplicateGenome? ==>
              (r.error.name in p.seen && r.error.name in EntryNames(es)) || Duplicated(r.error.name, EntryNames(es)))
  {
    var es := init + [e];
    assert es[|init|] == e;
    if e.count.None? {
    } else if e.name in q.seen {
      AddEntryDuplicate(p, init, e, q);
    } else {
      AddEntryFresh(p, init, e, q);
    }
  }

  /** A last entry whose name is already used makes the names repeat. */
  lemma AddEntryDuplicate(p: Progress, init: seq<Entry>, e: Entry, q: Progress)
    requires p.seen == Elems(p.names)
    requires q.seen == Elems(q.names) && q.names == p.names + EntryNames(init)
    requires e.name in q.seen
    ensures var names := EntryNames(init + [e]);
      && (e.name in p.seen || Duplicated(e.name, names))
      && e.name in names
      && !(Distinct(names) && forall n <- names :: n !in p.seen)
  {
    var names := EntryNames(init);
    EntryNamesSnoc(init, e);
    ElemsAppend(p.names, names);
    ElemsMembers(names);
    assert (names + [e.name])[|names|] == e.name;
    if e.name !in p.seen {
      DuplicatedAppend(e.name, names, [e.name]);
    }
  }

  /** A last entry with a new name keeps the names distinct and new. */
  lemma AddEntryFresh(p: Progress, init: seq<Entry>, e: Entry, q: Progress)
    requires p.seen == Elems(p.names)
    requires Distinct(EntryNames(init))
    requires forall n <- EntryNames(init) :: n !in p.seen
    requires q.seen == Elems(q.names) && q.names == p.names + EntryNames(init)
    requires e.name !in q.seen
    ensures var names := EntryNames(init + [e]);
      Distinct(names) && forall n <- names :: n !in p.seen
  {
    var names := EntryNames(init);
    EntryNamesSnoc(init, e);
    ElemsAppend(p.names, names);
    ElemsMembers(names);
    DistinctAppend(names, [e.name]);
  }

  /** The state after an accepted last entry. */
  lemma AddEntryResult(p: Progress, init: seq<Entry>, e: Entry, q: Progress, line: string)
    requires q.seen == Elems(q.names)
    requires q.names == p.names + EntryNames(init)
    requires q.groups == p.groups + EntryGroups(init, |p.names|)
    requires AddEntry(q, e, line).Ok?
    ensures var r := AddEntry(q, e, line).value;
      && r.seen == Elems(r.names)
      && r.names == p.names + EntryNames(init + [e])
      && r.groups == p.groups + EntryGroups(init + [e], |p.names|)
  {
    var n := e.count.value;
    var r := AddEntry(q, e, line).value;
    assert r == Progress(q.seen + {e.name}, q.names + [e.name], q.groups + [Group(|q.names|, n)]);
    ElemsSnoc(q.seen, q.names, e.name);
    NamesSnoc(p.names, init, e);
    GroupsSnoc(p, init, e, q.groups, n);
  }

  lemma ElemsSnoc(seen: set<string>, names: seq<string>, n: string)
    requires seen == Elems(names)
    ensures seen + {n} == Elems(names + [n])
  {
    ElemsAppend(names, [n]);
    ElemsSingleton(n);
  }

  lemma NamesSnoc(names: seq<string>, init: seq<Entry>, e: Entry)
    ensures names + EntryNames(init) + [e.name] == names + EntryNames(init + [e])
  {
    EntryNamesSnoc(init, e);
    AppendAssoc(names, EntryNames(init), [e.name]);
  }

  lemma GroupsSnoc(p: Progress, init: seq<Entry>, e: Entry, groups: seq<Group>, n: U64)
    requires groups == p.groups + EntryGroups(init, |p.names|)
    requires e.count == Some(n)
    ensures groups + [Group(|p.names| + |init|, n)] == p.groups + EntryGroups(init + [e], |p.names|)
  {
    EntryGroupsSnoc(init, e, |p.names|);
    GroupsAppendAssoc(p.groups, EntryGroups(init, |p.names|), [Group(|p.names| + |init|, n)]);
  }

  lemma AppendAssoc(a: seq<string>, b: seq<string>, c: seq<string>)
    ensures a + b + c == a + (b + c)
  {
  }

  lemma GroupsAppendAssoc(a: seq<Group>, b: seq<Group>, c: seq<Group>)
    ensures a + b + c == a + (b + c)
  {
  }

  // ---------------------------------------------------------------------------
  // One line, then all lines

  /** A line is accepted exactly when it is well formed and its genome names
      are distinct and new; then its file, its groups and its names are
      appended. The first duplicate error is kept for explicit genome names,
      and a bare line whose file name is taken always fails with the second. */
  lemma AddLineSpec(b: Builder, line: string)
    requires b.seen == Elems(b.out.entityNames)
    ensures var r := AddLine(b, line);
      r.Ok? <==> WellFormed(line) && Distinct(LineNames(line)) && forall n <- LineNames(line) :: n !in b.seen
    ensures var r := AddLine(b, line);
      var m := b.out;
      r.Ok? ==>
        && r.value.seen == Elems(r.value.out.entityNames)
        && r.value.out == EntityMap(m.fileGroups + [LineGroups(line, |m.entityNames|)],
                                    m.fileNames + [FileName(line)],
                                    m.entityNames + LineNames(line))
    ensures var r := AddLine(b, line);
      r.Err? ==>
        && (r.error.MalformedLine? ==> r.error.line == line && !WellFormed(line))
        && (r.error.DuplicateGenome? ==>
              (r.error.name in b.seen && r.error.name in LineNames(line)) || Duplicated(r.error.name, LineNames(line)))
        && (r.error.DuplicateGenome? ==> |LineEntries(line)| > 0)
        && (r.error.DuplicateGenomeAndFile? ==>
              |LineEntries(line)| == 0 && r.error.name == FileName(line) && r.error.name in b.seen)
    ensures var r := AddLine(b, line);
      |Split(line, Tab)| > 0 && |LineEntries(line)| == 0 && r.Err? ==>
        r.error == DuplicateGenomeAndFile(FileName(line))
  {
    if |Split(line, Tab)| > 0 {
      if |LineEntries(line)| > 0 {
        AddLineEntries(b, line);
      } else {
        AddLineBare(b, line);
      }
    }
  }

  /** A line with entries goes through the entry loop. */
  lemma AddLineEntries(b: Builder, line: string)
    requires b.seen == Elems(b.out.entityNames)
    requires |Split(line, Tab)| > 0 && |LineEntries(line)| > 0
    ensures var r := AddLine(b, line);
      r.Ok? <==> WellFormed(line) && Distinct(LineNames(line)) && forall n <- LineNames(line) :: n !in b.seen
    ensures var r := AddLine(b, line);
      var m := b.out;
      r.Ok? ==>
        && r.value.seen == Elems(r.value.out.entityNames)
        && r.value.out == EntityMap(m.fileGroups + [LineGroups(line, |m.entityNames|)],
                                    m.fileNames + [FileName(line)],
                                    m.entityNames + LineNames(line))
    ensures var r := AddLine(b, line);
      r.Err? ==>
        && (r.error.MalformedLine? ==> r.error.line == line && !WellFormed(line))
        && (r.error.DuplicateGenome? ==>
              (r.error.name in b.seen && r.error.name in LineNames(line)) || Duplicated(r.error.name, LineNames(line)))
        && !r.error.DuplicateGenomeAndFile?
  {
    var m := b.out;
    var es := LineEntries(line);
    var p := Progress(b.seen, m.entityNames, []);
    assert AddLine(b, line) == match AddEntries(p, es, line)
      case Err(err) => Err(err)
      case Ok(q) => Ok(Builder(EntityMap(m.fileGroups + [q.groups], m.fileNames + [FileName(line)], q.names), q.seen));
    assert LineNames(line) == EntryNames(es);
    assert WellFormed(line) <==> forall e <- es :: e.count.Some?;
    assert LineCounts(line) == EntryCounts(es);
    assert [] + EntryGroups(es, |m.entityNames|) == LineGroups(line, |m.entityNames|);
    AddEntriesSpec(p, es, line);
  }

  /** A bare line adds its file as a genome, unless the name is taken. */
  lemma AddLineBare(b: Builder, line: string)
    requires b.seen == Elems(b.out.entityNames)
    requires |Split(line, Tab)| > 0 && |LineEntries(line)| == 0
    ensures WellFormed(line) && LineNames(line) == [FileName(line)]
    ensures var r := AddLine(b, line);
      r.Ok? <==> FileName(line) !in b.seen
    ensures var r := AddLine(b, line);
      var m := b.out;
      r.Ok? ==>
        && r.value.seen == Elems(r.value.out.entityNames)
        && r.value.out == EntityMap(m.fileGroups + [LineGroups(line, |m.entityNames|)],
                                    m.fileNames + [FileName(line)],
                                    m.entityNames + LineNames(line))
    ensures var r := AddLine(b, line);
      r.Err? ==> r.error == DuplicateGenomeAndFile(FileName(line)) && FileName(line) in b.seen
  {
    var m := b.out;
    var fname := FileName(line);
    ElemsAppend(m.entityNames, [fname]);
    ElemsSingleton(fname);
    assert LineGroups(line, |m.entityNames|) == [Group(|m.entityNames|, UnknownCount)];
  }

  lemma ExpectedSnoc(init: seq<string>, l: string)
    ensures var e := Expected(init);
      Expected(init + [l]) == EntityMap(e.fileGroups + [LineGroups(l, |AllNames(init)|)],
                                        e.fileNames + [FileName(l)],
                                        AllNames(init) + LineNames(l))
  {
    var lines := init + [l];
    assert lines[..|lines| - 1] == init;
  }

  /** Resolution accepts exactly the lines that are well formed and whose
      genome names are distinct, and then produces `Expected(lines)`; each
      failure names a malformed line or a genome name that really occurs twice. */
  lemma {:induction false} BuildSpec(lines: seq<string>)
    ensures var r := Build(lines);
      r.Ok? <==> (forall l <- lines :: WellFormed(l)) && Distinct(AllNames(lines))
    ensures var r := Build(lines);
      r.Ok? ==> r.value.out == Expected(lines) && r.value.seen == Elems(r.value.out.entityNames)
    ensures var r := Build(lines);
      r.Err? ==>
        && (r.error.MalformedLine? ==> r.error.line in lines && !WellFormed(r.error.line))
        && (r.error.DuplicateGenome? ==> Duplicated(r.error.name, AllNames(lines)))
        && (r.error.DuplicateGenomeAndFile? ==>
              exists i :: 0 <= i < |lines| && |LineEntries(lines[i])| == 0
                && FileName(lines[i]) == r.error.name && r.error.name in AllNames(lines[..i]))
    decreases |lines|
  {
    if |lines| == 0 {
      assert Expected(lines) == EntityMap([], [], []);
    } else {
      var init := lines[..|lines| - 1];
      var l := lines[|lines| - 1];
      assert lines == init + [l];
      BuildSpec(init);
      DistinctAppend(AllNames(init), LineNames(l));
      match Build(init)
      case Err(err) =>
        BuildFault(init, l, err);
      case Ok(b) =>
        BuildStep(init, l, b);
    }
  }

  /** Adding the last line to the state the earlier lines left. */
  lemma BuildStep(init: seq<string>, l: string, b: Builder)
    requires b.out == Expected(init) && b.seen == Elems(b.out.entityNames)
    requires (forall l <- init :: WellFormed(l)) && Distinct(AllNames(init))
    ensures var lines := init + [l];
      var r := AddLine(b, l);
      && (r.Ok? <==> (forall l <- lines :: WellFormed(l)) && Distinct(AllNames(lines)))
      && (r.Ok? ==> r.value.out == Expected(lines) && r.value.seen == Elems(r.value.out.entityNames))
      && (r.Err? ==>
            && (r.error.MalformedLine? ==> r.error.line in lines && !WellFormed(r.error.line))
            && (r.error.DuplicateGenome? ==> Duplicated(r.error.name, AllNames(lines)))
            && (r.error.DuplicateGenomeAndFile? ==>
                  exists i :: 0 <= i < |lines| && |LineEntries(lines[i])| == 0
                    && FileName(lines[i]) == r.error.name && r.error.name in AllNames(lines[..i])))
  {
    AddLineSpec(b, l);
    BuildStepOk(init, l, b);
    if AddLine(b, l).Err? {
      BuildStepErr(init, l, b, AddLine(b, l).error);
    }
  }

  /** The success half of `BuildStep`. */
  lemma BuildStepOk(init: seq<string>, l: string, b: Builder)
    requires b.out == Expected(init) && b.seen == Elems(b.out.entityNames)
    requires (forall l <- init :: WellFormed(l)) && Distinct(AllNames(init))
    ensures var lines := init + [l];
      var r := AddLine(b, l);
      && (r.Ok? <==> (forall l <- lines :: WellFormed(l)) && Distinct(AllNames(lines)))
      && (r.Ok? ==> r.value.out == Expected(lines) && r.value.seen == Elems(r.value.out.entityNames))
  {
    var lines := init + [l];
    assert lines[..|lines| - 1] == init;
    assert AllNames(lines) == AllNames(init) + LineNames(l);
    DistinctAppend(AllNames(init), LineNames(l));
    AddLineSpec(b, l);
    ExpectedSnoc(init, l);
    ElemsMembers(AllNames(init));
  }

  /** The failure half of `BuildStep`: each error of the last line is
      explained by all the lines. */
  lemma BuildStepErr(init: seq<string>, l: string, b: Builder, err: MetaError)
    requires b.out == Expected(init) && b.seen == Elems(b.out.entityNames)
    requires AddLine(b, l) == Err(err)
    ensures var lines := init + [l];
      && (err.MalformedLine? ==> err.line in lines && !WellFormed(err.line))
      && (err.DuplicateGenome? ==> Duplicated(err.name, AllNames(lines)))
      && (err.DuplicateGenomeAndFile? ==>
            exists i :: 0 <= i < |lines| && |LineEntries(lines[i])| == 0
              && FileName(lines[i]) == err.name && err.name in AllNames(lines[..i]))
  {
    var lines := init + [l];
    assert lines[..|lines| - 1] == init;
    assert AllNames(lines) == AllNames(init) + LineNames(l);
    AddLineSpec(b, l);
    ElemsMembers(AllNames(init));
    if err.DuplicateGenome? {
      DuplicatedAppend(err.name, AllNames(init), LineNames(l));
    }
    if err.DuplicateGenomeAndFile? {
      assert lines[|init|] == l && lines[..|init|] == init;
    }
  }

  /** A failure on the earlier lines is still a failure with all lines. */
  lemma BuildFault(init: seq<string>, l: string, err: MetaError)
    requires err.MalformedLine? ==> err.line in init && !WellFormed(err.line)
    requires err.DuplicateGenome? ==> Duplicated(err.name, AllNames(init))
    requires err.DuplicateGenomeAndFile? ==>
      exists i :: 0 <= i < |init| && |LineEntries(init[i])| == 0
        && FileName(init[i]) == err.name && err.name in AllNames(init[..i])
    ensures var lines := init + [l];
      && (err.MalformedLine? ==> err.line in lines && !WellFormed(err.line))
      && (err.DuplicateGenome? ==> Duplicated(err.name, AllNames(lines)))
      && (err.DuplicateGenomeAndFile? ==>
            exists i :: 0 <= i < |lines| && |LineEntries(lines[i])| == 0
              && FileName(lines[i]) == err.name && err.name in AllNames(lines[..i]))
  {
    var lines := init + [l];
    assert lines[..|lines| - 1] == init;
    if err.DuplicateGenome? {
      DuplicatedAppend(err.name, AllNames(init), LineNames(l));
    }
    if err.DuplicateGenomeAndFile? {
      var i :| 0 <= i < |init| && |LineEntries(init[i])| == 0
        && FileName(init[i]) == err.name && err.name in AllNames(init[..i]);
      assert lines[i] == init[i] && lines[..i] == init[..i];
    }
  }

  // ---------------------------------------------------------------------------
  // Properties of the result

  /** Line `i`'s groups are numbered from the count of genomes before it. */
  lemma {:induction false} ExpectedGroupsAt(lines: seq<string>, i: nat)
    requires i < |lines|
    ensures ExpectedGroups(lines)[i] == LineGroups(lines[i], |AllNames(lines[..i])|)
    decreases |lines|
  {
    var init := lines[..|lines| - 1];
    var last := lines[|lines| - 1];
    assert ExpectedGroups(lines) == ExpectedGroups(init) + [LineGroups(last, |AllNames(init)|)];
    if i < |init| {
      ExpectedGroupsAt(init, i);
      assert init[..i] == lines[..i] && init[i] == lines[i];
      assert ExpectedGroups(lines)[i] == ExpectedGroups(init)[i];
    } else {
      assert init == lines[..i] && last == lines[i];
    }
  }

  /** The names of the lines before `i` and of line `i` start the name list. */
  lemma {:induction false} AllNamesPrefix(lines: seq<string>, i: nat)
    requires i < |lines|
    ensures AllNames(lines[..i]) + LineNames(lines[i]) <= AllNames(lines)
    decreases |lines|
  {
    var init := lines[..|lines| - 1];
    var last := lines[|lines| - 1];
    assert AllNames(lines) == AllNames(init) + LineNames(last);
    if i < |init| {
      AllNamesPrefix(init, i);
      assert init[..i] == lines[..i] && init[i] == lines[i];
      PrefixExtend(AllNames(lines[..i]) + LineNames(lines[i]), AllNames(init), LineNames(last));
    } else {
      assert init == lines[..i] && last == lines[i];
    }
  }

  lemma PrefixExtend(xs: seq<string>, ys: seq<string>, zs: seq<string>)
    requires xs <= ys
    ensures xs <= ys + zs
  {
    assert (ys + zs)[..|xs|] == ys[..|xs|];
  }

  /** Identifiers are dense and agree with the names: the `k`-th group of file
      `i` names the `k`-th genome of line `i`, and identifiers run from 0 to one
      less than the number of genomes. */
  lemma GroupsNameGenomes(infnames: seq<string>, i: nat, k: nat)
    requires ParseMeta(infnames).Ok?
    requires i < |infnames| && k < |LineNames(infnames[i])|
    ensures var m := ParseMeta(infnames).value;
      && k < |m.fileGroups[i]|
      && m.fileGroups[i][k].entityId < |m.entityNames|
      && m.entityNames[m.fileGroups[i][k].entityId] == LineNames(infnames[i])[k]
      && m.fileNames[i] == FileName(infnames[i])
  {
    ExpectedNameGenomes(infnames, i, k);
  }

  lemma ExpectedNameGenomes(lines: seq<string>, i: nat, k: nat)
    requires i < |lines| && k < |LineNames(lines[i])|
    ensures var m := Expected(lines);
      && k < |m.fileGroups[i]|
      && m.fileGroups[i][k].entityId < |m.entityNames|
      && m.entityNames[m.fileGroups[i][k].entityId] == LineNames(lines[i])[k]
      && m.fileNames[i] == FileName(lines[i])
  {
    var line := lines[i];
    var before := AllNames(lines[..i]);
    ExpectedGroupsAt(lines, i);
    LineGroupIds(line, |before|);
    AllNamesPrefix(lines, i);
    IdentifiedName(LineGroups(line, |before|), before, LineNames(line), AllNames(lines), k);
    FileNamesAt(lines, i);
  }

  lemma LineGroupIds(line: string, base: nat)
    ensures |LineGroups(line, base)| == |LineNames(line)|
    ensures forall j :: 0 <= j < |LineGroups(line, base)| ==> LineGroups(line, base)[j].entityId == base + j
  {
  }

  /** Groups numbered on from the names `before` point at their own names. */
  lemma IdentifiedName(groups: seq<Group>, before: seq<string>, own: seq<string>, names: seq<string>, k: nat)
    requires |groups| == |own| && k < |own|
    requires forall j :: 0 <= j < |groups| ==> groups[j].entityId == |before| + j
    requires before + own <= names
    ensures groups[k].entityId < |names| && names[groups[k].entityId] == own[k]
  {
    PrefixAt(before + own, names, |before| + k);
  }

  lemma PrefixAt(xs: seq<string>, ys: seq<string>, k: nat)
    requires xs <= ys && k < |xs|
    ensures k < |ys| && ys[k] == xs[k]
  {
    assert ys[..|xs|] == xs;
  }

  lemma {:induction false} FileNamesAt(lines: seq<string>, i: nat)
    requires i < |lines|
    ensures FileNames(lines)[i] == FileName(lines[i])
    decreases |lines|
  {
    var init := lines[..|lines| - 1];
    if i < |init| {
      FileNamesAt(init, i);
    }
  }

  /** Resolving one line. */
  lemma SingleLine(l: string)
    ensures ParseMeta([l]).Ok? <==> WellFormed(l) && Distinct(LineNames(l))
    ensures ParseMeta([l]).Ok? ==>
      ParseMeta([l]).value == EntityMap([LineGroups(l, 0)], [FileName(l)], LineNames(l))
  {
    var lines := [l];
    assert lines[..0] == [];
    assert AllNames(lines) == LineNames(l);
    assert ExpectedGroups(lines) == [LineGroups(l, 0)];
    assert FileNames(lines) == [FileName(l)];
  }

  /** The text of a line whose tab-separated fields are `fields`. */
  function TabJoin(fields: seq<string>): string
  {
    if |fields| == 0 then "" else if |fields| == 1 then fields[0] else fields[0] + [Tab] + TabJoin(fields[1..])
  }

  /** A line written from tab-free fields, the last non-empty, splits back
      into those fields. */
  lemma {:induction false} SplitTabJoin(fields: seq<string>)
    requires |fields| > 0 && |fields[|fields| - 1]| > 0
    requires forall k :: 0 <= k < |fields| ==> Tab !in fields[k]
    ensures Split(TabJoin(fields), Tab) == fields
    decreases |fields|
  {
    if |fields| == 1 {
      SplitLast(fields[0], Tab);
    } else {
      SplitTabJoin(fields[1..]);
      SplitCons(fields[0], Tab, TabJoin(fields[1..]));
    }
  }

  /** A bare line is one genome named after the file, with the unknown count. */
  lemma BareLine(f: string)
    requires |f| > 0 && Tab !in f
    ensures ParseMeta([f]) == Ok(EntityMap([[Group(0, UnknownCount)]], [f], [f]))
  {
    SplitLast(f, Tab);
    assert LineEntries(f) == [];
    assert FileName(f) == f;
    assert LineNames(f) == [f];
    assert LineGroups(f, 0) == [Group(0, UnknownCount)];
    assert WellFormed(f);
    SingleLine(f);
  }

  lemma BareLineExample()
    ensures ParseMeta(["genomeA.fa"]) == Ok(EntityMap([[Group(0, UnknownCount)]], ["genomeA.fa"], ["genomeA.fa"]))
  {
    BareLine("genomeA.fa");
  }

  /** A line naming two distinct genomes with positive counts. */
  lemma TwoGenomeLine(f: string, g1: string, c1: U64, g2: string, c2: U64)
    requires Tab !in f && Tab !in g1 && Tab !in g2 && g1 != g2
    requires c1 > 0 && c2 > 0
    ensures var l := TabJoin([f, g1, ShowNat(c1), g2, ShowNat(c2)]);
      ParseMeta([l]) == Ok(EntityMap([[Group(0, c1), Group(1, c2)]], [f], [g1, g2]))
  {
    var l := TabJoin([f, g1, ShowNat(c1), g2, ShowNat(c2)]);
    TwoGenomeEntries(f, g1, c1, g2, c2);
    CountShown(c1);
    CountShown(c2);
    TwoGenomeGroups(l, g1, c1, g2, c2);
    SingleLine(l);
  }

  lemma TwoGenomeEntries(f: string, g1: string, c1: U64, g2: string, c2: U64)
    requires Tab !in f && Tab !in g1 && Tab !in g2
    ensures var l := TabJoin([f, g1, ShowNat(c1), g2, ShowNat(c2)]);
      FileName(l) == f && LineEntries(l) == [Entry(g1, PositiveCount(ShowNat(c1))), Entry(g2, PositiveCount(ShowNat(c2)))]
  {
    var n1 := ShowNat(c1);
    var n2 := ShowNat(c2);
    var fields := [f, g1, n1, g2, n2];
    DigitsHaveNoTab(n1);
    DigitsHaveNoTab(n2);
    SplitTabJoin(fields);
    TwoEntries(TabJoin(fields), f, g1, n1, g2, n2);
  }

  lemma TwoGenomeGroups(l: string, g1: string, c1: U64, g2: string, c2: U64)
    requires LineEntries(l) == [Entry(g1, Some(c1)), Entry(g2, Some(c2))]
    requires g1 != g2
    ensures WellFormed(l) && Distinct(LineNames(l))
    ensures LineNames(l) == [g1, g2]
    ensures LineGroups(l, 0) == [Group(0, c1), Group(1, c2)]
  {
    TwoGenomeNames(l, g1, Some(c1), g2, Some(c2));
    TwoGenomeCounts(l, g1, c1, g2, c2);
  }

  lemma TwoGenomeNames(l: string, g1: string, n1: Option<U64>, g2: string, n2: Option<U64>)
    requires LineEntries(l) == [Entry(g1, n1), Entry(g2, n2)]
    ensures LineNames(l) == [g1, g2]
  {
  }

  lemma TwoGenomeCounts(l: string, g1: string, c1: U64, g2: string, c2: U64)
    requires LineEntries(l) == [Entry(g1, Some(c1)), Entry(g2, Some(c2))]
    ensures WellFormed(l)
    ensures LineGroups(l, 0) == [Group(0, c1), Group(1, c2)]
  {
    TwoGenomeWellFormed(l, g1, c1, g2, c2);
    TwoCounts([Entry(g1, Some(c1)), Entry(g2, Some(c2))], c1, c2);
    TwoGroups(LineCounts(l), c1, c2);
  }

  lemma TwoCounts(es: seq<Entry>, c1: U64, c2: U64)
    requires |es| == 2
    requires es[0].count == Some(c1) && es[1].count == Some(c2)
    ensures EntryCounts(es) == [c1, c2]
  {
  }

  lemma TwoGroups(counts: seq<U64>, c1: U64, c2: U64)
    requires counts == [c1, c2]
    ensures seq(|counts|, k requires 0 <= k < |counts| => Group(0 + k, counts[k])) == [Group(0, c1), Group(1, c2)]
  {
  }

  lemma TwoGenomeWellFormed(l: string, g1: string, c1: U64, g2: string, c2: U64)
    requires LineEntries(l) == [Entry(g1, Some(c1)), Entry(g2, Some(c2))]
    ensures WellFormed(l)
  {
    assert Split(l, Tab) != [];
  }

  lemma TwoEntries(l: string, f: string, g1: string, n1: string, g2: string, n2: string)
    requires Split(l, Tab) == [f, g1, n1, g2, n2]
    ensures FileName(l) == f
    ensures LineEntries(l) == [Entry(g1, PositiveCount(n1)), Entry(g2, PositiveCount(n2))]
  {
    assert Split(l, Tab)[1..] == [g1, n1] + ([g2, n2] + []);
    EntriesCons(g2, n2, []);
    EntriesCons(g1, n1, [g2, n2] + []);
  }

  /** A name followed by its count text opens the entry list. */
  lemma EntriesCons(name: string, text: string, more: seq<string>)
    ensures Entries([name, text] + more) == [Entry(name, PositiveCount(text))] + Entries(more)
  {
    assert ([name, text] + more)[2..] == more;
  }

  lemma CountShown(c: U64)
    requires c > 0
    ensures PositiveCount(ShowNat(c)) == Some(c)
  {
    ReadUnsignedShown(c, "");
    assert ShowNat(c) + "" == ShowNat(c);
  }

  lemma DigitsHaveNoTab(d: string)
    requires AllDigits(d)
    ensures Tab !in d
  {
    assert forall k :: 0 <= k < |d| ==> d[k] != Tab;
  }

  /** `multi.fa<TAB>g1<TAB>3<TAB>g2<TAB>5` is two genomes of file `multi.fa`,
      `g1` with 3 sequences and `g2` with 5. */
  lemma TwoGenomeExample(l: string)
    requires l == "multi.fa\tg1\t3\tg2\t5"
    ensures ParseMeta([l]) == Ok(EntityMap([[Group(0, 3), Group(1, 5)]], ["multi.fa"], ["g1", "g2"]))
  {
    assert ShowNat(3) == "3" && ShowNat(5) == "5";
    assert TabJoin(["multi.fa", "g1", "3", "g2", "5"]) == l;
    TwoGenomeLine("multi.fa", "g1", 3, "g2", 5);
  }
}

=== FILE: header.dfy ===
/** The configuration header a `sketch` run leaves behind (`Sketchargs::write`)
    and its reader (`Sketchargs::read`), which feeds every line after the first
    back through the option classifier. */
module Header {
  import opened Results
  import opened Streams
  import opened Options
  import opened Sketch

  /** What `write` records about the run besides the configuration: two time
      stamps, the CPU time, and the build revision text. */
  datatype Provenance = Provenance(began: string, ended: string, cpuSeconds: U64, revision: string)

  /** Why writing or reading a header stops the command. */
  datatype HeaderError =
    | CannotWrite(path: string)
    | CannotRead(path: string)
    | InvalidLine(line: string, path: string)
  {
    /** The status `write` or `read` passes to `exit`. */
    function ExitStatus(): int
    {
      if InvalidLine? then 2 else -1
    }
  }

  /** The order in which `write` emits the fields. */
  const WriteOrder: seq<Field> :=
    [BBits, IsCasePreserved, IsStrandPreserved, KmerLen, ListFname,
     MinhashType, NThreads, OutFname, RandSeed, SketchSize64]

  /** `--name=value` for field `f`. */
  function FieldLine(a: SketchArgs, f: Field): string
  {
    Name(f) + "=" + ShowValue(Get(a, f))
  }

  /** The lines for the fields `fs`, in order. */
  function FieldLines(a: SketchArgs, fs: seq<Field>): (r: seq<string>)
    ensures |r| == |fs|
    ensures forall k :: 0 <= k < |fs| ==> r[k] == FieldLine(a, fs[k])
  {
    if |fs| == 0 then [] else [FieldLine(a, fs[0])] + FieldLines(a, fs[1..])
  }

  function BeganComment(p: Provenance): string
  {
    "--COMMENT=program began at " + p.began
  }

  function EndedComment(p: Provenance): string
  {
    "--COMMENT=program ended at " + p.ended
  }

  function ConsumedComment(p: Provenance): string
  {
    "--COMMENT=program consumed " + ShowNat(p.cpuSeconds) + " CPU seconds"
  }

  function RevisionComment(p: Provenance): string
  {
    "--COMMENT=revision " + p.revision
  }

  /** The provenance comments. The first two carry no line break of their own, so
      they end a line only when their time stamp does. */
  function ProvenanceText(p: Provenance): string
  {
    BeganComment(p) + (EndedComment(p) + (ConsumedComment(p) + "\n" + (RevisionComment(p) + "\n")))
  }

  /** The text `write` puts in the file named by `outfname`. */
  function HeaderText(a: SketchArgs, p: Provenance): string
  {
    ProvenanceText(p) + Join(FieldLines(a, WriteOrder), '\n')
  }

  /** `Sketchargs::write`: the header replaces whatever the output path held; a
      path that cannot be opened for writing stops the command. */
  function WriteHeader(a: SketchArgs, p: Provenance, fs: FileSystem): (r: Result<FileSystem, HeaderError>)
    ensures r.Ok? <==> a.outfname in fs.writable
    ensures r.Err? ==> r.error == CannotWrite(a.outfname)
    ensures r.Ok? ==> a.outfname in r.value.contents && r.value.contents[a.outfname] == HeaderText(a, p)
    ensures r.Ok? ==>
      && r.value.writable == fs.writable
      && r.value.contents.Keys == fs.contents.Keys + {a.outfname}
      && forall path :: path in fs.contents && path != a.outfname ==>
           r.value.contents[path] == fs.contents[path]
  {
    if a.outfname in fs.writable then
      Ok(fs.(contents := fs.contents[a.outfname := HeaderText(a, p)]))
    else
      Err(CannotWrite(a.outfname))
  }

  /** The loop of `Sketchargs::read` over the lines after the first: each is
      classified and applied like an option token, and the first one that is not
      accepted stops the command. */
  function ReadLines(a: SketchArgs, lines: seq<string>, path: string): (r: Result<SketchArgs, HeaderError>)
    ensures r.Ok? <==> forall i :: 0 <= i < |lines| ==> SketchCode(lines[i]) == 0
    ensures r.Ok? ==> r.value.infnames == a.infnames + Positionals(lines)
    ensures r.Ok? ==> forall f :: Get(r.value, f) == SketchSetting(a, f, lines)
    ensures r.Err? ==> exists i :: FirstRejectedAt(lines, i) && r.error == InvalidLine(lines[i], path)
    decreases |lines|
  {
    if |lines| == 0 then Ok(a)
    else
      var v := ParseSketchToken(a, lines[0]);
      ParseSketchTokenCode(a, lines[0]);
      if v.Accepted? then
        PositionalStep(a, lines[0]);
        var r := ReadLines(v.args, lines[1..], path);
        assert r.Err? ==> exists i :: FirstRejectedAt(lines, i) && r.error == InvalidLine(lines[i], path) by {
          if r.Err? {
            var k :| FirstRejectedAt(lines[1..], k) && r.error == InvalidLine(lines[1..][k], path);
            FirstRejectedLater(lines, k);
          }
        }
        assert r.Ok? ==> forall f :: Get(r.value, f) == SketchSetting(a, f, lines) by {
          if r.Ok? {
            FieldsAfterStep(a, lines, r.value);
          }
        }
        r
      else
        assert FirstRejectedAt(lines, 0);
        Err(InvalidLine(lines[0], path))
  }

  /** A configuration that holds the last assignments of `lines[1..]`, started
      from what the accepted `lines[0]` produced, holds those of `lines`. */
  lemma FieldsAfterStep(a: SketchArgs, lines: seq<string>, c: SketchArgs)
    requires |lines| > 0 && ParseSketchToken(a, lines[0]).Accepted?
    requires forall f :: Get(c, f) == SketchSetting(ParseSketchToken(a, lines[0]).args, f, lines[1..])
    ensures forall f :: Get(c, f) == SketchSetting(a, f, lines)
  {
    assert lines == [lines[0]] + lines[1..];
    forall f
      ensures Get(c, f) == SketchSetting(a, f, lines)
    {
      SettingAfter(a, lines[0], lines[1..], f);
    }
  }

  /** The codes of the lines after the first, counted from the first line. */
  lemma LaterCodes(ls: seq<string>)
    requires |ls| > 0
    ensures (forall i :: 0 <= i < |ls[1..]| ==> SketchCode(ls[1..][i]) == 0)
      <==> (forall i :: 1 <= i < |ls| ==> SketchCode(ls[i]) == 0)
  {
    if forall i :: 0 <= i < |ls[1..]| ==> SketchCode(ls[1..][i]) == 0 {
      forall i | 1 <= i < |ls|
        ensures SketchCode(ls[i]) == 0
      {
        assert ls[i] == ls[1..][i - 1];
      }
    }
  }

  /** Every line of `text` after the first is an accepted option token; the
      first line is not looked at. */
  ghost predicate LaterLinesAccepted(text: string)
  {
    var ls := Split(text, '\n');
    forall i :: 1 <= i < |ls| ==> SketchCode(ls[i]) == 0
  }

  /** `Sketchargs::read` on the text of a header: the first line is skipped, so
      it is never classified, and every later line is read like an option
      token. */
  function ReadHeaderText(a: SketchArgs, text: string, path: string): (r: Result<SketchArgs, HeaderError>)
    ensures r.Ok? <==> LaterLinesAccepted(text)
    ensures var ls := Split(text, '\n');
      var later := if |ls| == 0 then [] else ls[1..];
      && (r.Ok? ==> r.value.infnames == a.infnames + Positionals(later))
      && (r.Ok? ==> forall f :: Get(r.value, f) == SketchSetting(a, f, later))
      && (r.Err? ==> exists i :: FirstRejectedAt(later, i) && r.error == InvalidLine(later[i], path))
  {
    if |Split(text, '\n')| == 0 then Ok(a)
    else
      LaterCodes(Split(text, '\n'));
      ReadLines(a, Split(text, '\n')[1..], path)
  }

  /** `Sketchargs::read`: a path that cannot be opened stops the command. */
  function ReadHeader(a: SketchArgs, path: string, fs: FileSystem): (r: Result<SketchArgs, HeaderError>)
    ensures path !in fs.contents ==> r == Err(CannotRead(path))
    ensures path in fs.contents ==> r == ReadHeaderText(a, fs.contents[path], path)
    ensures path in fs.contents ==> (r.Ok? <==> LaterLinesAccepted(fs.contents[path]))
  {
    if path in fs.contents then ReadHeaderText(a, fs.contents[path], path) else Err(CannotRead(path))
  }

  // ---------------------------------------------------------------------------
  // The round trip

  /** A line that starts with `--COMMENT=`. */
  predicate IsCommentLine(l: string)
  {
    CommentKey + "=" <= l
  }

  /** A comment line is accepted and changes nothing. */
  lemma CommentLineIgnored(a: SketchArgs, l: string)
    requires IsCommentLine(l)
    ensures ParseSketchToken(a, l) == Accepted(a)
  {
    var rest := l[|CommentKey| + 1..];
    assert l == CommentKey + "=" + rest;
    IndexOfFirst(CommentKey, '=', rest);
    assert OptionKey(l) == CommentKey;
    assert l[2] != HelpFlag[2];
  }

  lemma {:induction false} CommentLinesIgnored(a: SketchArgs, comments: seq<string>, rest: seq<string>, path: string)
    requires forall k :: 0 <= k < |comments| ==> IsCommentLine(comments[k])
    ensures ReadLines(a, comments + rest, path) == ReadLines(a, rest, path)
    decreases |comments|
  {
    if |comments| == 0 {
      assert comments + rest == rest;
    } else {
      var tail := comments[1..] + rest;
      assert comments + rest == [comments[0]] + tail;
      CommentLineIgnored(a, comments[0]);
      UnchangedLineSkipped(a, comments[0], tail, path);
      CommentLinesIgnored(a, comments[1..], rest, path);
    }
  }

  /** A line accepted without changing anything leaves the rest to decide. */
  lemma UnchangedLineSkipped(a: SketchArgs, l: string, more: seq<string>, path: string)
    requires ParseSketchToken(a, l) == Accepted(a)
    ensures ReadLines(a, [l] + more, path) == ReadLines(a, more, path)
  {
    assert ([l] + more)[0] == l && ([l] + more)[1..] == more;
  }

  /** One written field line is accepted and assigns exactly its field. */
  lemma FieldLineParses(b: SketchArgs, a: SketchArgs, f: Field)
    requires IsWord(a.listfname) && IsWord(a.outfname)
    ensures ParseSketchToken(b, FieldLine(a, f)) == Accepted(Set(b, f, Get(a, f)))
  {
    var v := Get(a, f);
    var l := FieldLine(a, f);
    assert Persistable(v);
    ShownValueIsOneLine(v);
    NameShape(f);
    OptionLine(Name(f), ShowValue(v));
    FieldNamedName(f);
    ReadShownValue(v);
    assert !(HelpFlag <= l) by {
      assert l[2] == Name(f)[2];
    }
  }

  /** Reading the lines written for `fs` gives each of those fields the value it
      has in `a`, and leaves every other field and the input names alone. */
  lemma {:induction false} FieldLinesRestore(b: SketchArgs, a: SketchArgs, fs: seq<Field>, path: string)
    requires IsWord(a.listfname) && IsWord(a.outfname)
    ensures ReadLines(b, FieldLines(a, fs), path).Ok?
    ensures var c := ReadLines(b, FieldLines(a, fs), path).value;
      && c.infnames == b.infnames
      && (forall f :: f in fs ==> Get(c, f) == Get(a, f))
      && (forall f :: f !in fs ==> Get(c, f) == Get(b, f))
    decreases |fs|
  {
    if |fs| > 0 {
      var lines := FieldLines(a, fs);
      var b1 := Set(b, fs[0], Get(a, fs[0]));
      FieldLineParses(b, a, fs[0]);
      assert lines[1..] == FieldLines(a, fs[1..]);
      FieldLinesRestore(b1, a, fs[1..], path);
    }
  }

  lemma FieldLineIsLine(a: SketchArgs, f: Field)
    requires IsWord(a.listfname) && IsWord(a.outfname)
    ensures '\n' !in FieldLine(a, f)
  {
    var v := Get(a, f);
    ShownValueIsOneLine(v);
    NotInAppend(Name(f), "=", '\n');
    NotInAppend(Name(f) + "=", ShowValue(v), '\n');
  }

  /** The lines after a comment whose time stamp `ended` ends with at most one
      trailing line break. */
  lemma EndedLines(h: string, ended: string, c: string, rv: string)
    requires '\n' !in h && '\n' !in c && '\n' !in rv
    requires DelimiterOnlyAtEnd(ended, '\n')
    ensures var lines := Split(h + ended + (c + "\n" + (rv + "\n")), '\n');
      if |ended| > 0 && ended[|ended| - 1] == '\n' then
        lines == [h + ended[..|ended| - 1], c, rv]
      else
        lines == [h + ended + c, rv]
  {
    var d := '\n';
    var last := rv + [d];
    SplitCons(rv, d, []);
    assert rv + [d] + [] == last;
    DelimiterOnlyAtEndParts(ended, d);
    if |ended| > 0 && ended[|ended| - 1] == d {
      EndedBreaksLine(h, ended[..|ended| - 1], c, last);
      assert ended[..|ended| - 1] + [d] == ended;
    } else {
      EndedJoinsLine(h, ended, c, last);
    }
  }

  /** A time stamp that ends its line closes the line it started on. */
  lemma EndedBreaksLine(h: string, e: string, c: string, last: string)
    requires '\n' !in h && '\n' !in e && '\n' !in c
    ensures Split(h + (e + "\n") + (c + "\n" + last), '\n') == [h + e, c] + Split(last, '\n')
  {
    var d := '\n';
    NotInAppend(h, e, d);
    var u := c + [d] + last;
    assert h + (e + [d]) + u == (h + e) + [d] + u;
    SplitCons(h + e, d, u);
    SplitCons(c, d, last);
  }

  /** A time stamp that does not end its line runs into the next comment. */
  lemma EndedJoinsLine(h: string, ended: string, c: string, last: string)
    requires '\n' !in h && '\n' !in ended && '\n' !in c
    ensures Split(h + ended + (c + "\n" + last), '\n') == [h + ended + c] + Split(last, '\n')
  {
    var d := '\n';
    NotInAppend(h, ended, d);
    NotInAppend(h + ended, c, d);
    assert h + ended + (c + [d] + last) == (h + ended + c) + [d] + last;
    SplitCons(h + ended + c, d, last);
  }

  lemma CommentLineShape(head: string, tail: string)
    requires IsCommentLine(head)
    ensures IsCommentLine(head + tail)
  {
    assert (head + tail)[..|CommentKey + "="|] == head[..|CommentKey + "="|];
  }

  /** The lines of `hb + began + (he + ended + (c + "\n" + (rv + "\n")))` after
      the first are comment lines when `he`, `c` and `rv` are: whether or not
      `began` and `ended` end their line, each line after the first starts
      with one of those three. */
  lemma {:induction false} CommentsAfterFirst(hb: string, began: string, he: string, ended: string, c: string, rv: string)
    requires '\n' !in hb && '\n' !in he && '\n' !in c && '\n' !in rv
    requires IsCommentLine(he) && IsCommentLine(c) && IsCommentLine(rv)
    requires DelimiterOnlyAtEnd(began, '\n') && DelimiterOnlyAtEnd(ended, '\n')
    ensures var lines := Split(hb + began + (he + ended + (c + "\n" + (rv + "\n"))), '\n');
      |lines| > 0 && forall k :: 1 <= k < |lines| ==> IsCommentLine(lines[k])
  {
    var d := '\n';
    DelimiterOnlyAtEndParts(began, d);
    if |began| > 0 && began[|began| - 1] == d {
      CommentsAfterBrokenBegan(hb, began, he, ended, c, rv);
    } else {
      var u := c + "\n" + (rv + "\n");
      NotInAppend(hb, began, d);
      NotInAppend(hb + began, he, d);
      assert hb + began + (he + ended + u) == (hb + began + he) + ended + u;
      EndedLines(hb + began + he, ended, c, rv);
    }
  }

  /** The case of `CommentsAfterFirst` where `began` ends its line. */
  lemma CommentsAfterBrokenBegan(hb: string, began: string, he: string, ended: string, c: string, rv: string)
    requires '\n' !in hb && '\n' !in he && '\n' !in c && '\n' !in rv
    requires IsCommentLine(he) && IsCommentLine(c) && IsCommentLine(rv)
    requires |began| > 0 && began[|began| - 1] == '\n' && '\n' !in began[..|began| - 1]
    requires DelimiterOnlyAtEnd(ended, '\n')
    ensures var lines := Split(hb + began + (he + ended + (c + "\n" + (rv + "\n"))), '\n');
      |lines| > 0 && forall k :: 1 <= k < |lines| ==> IsCommentLine(lines[k])
  {
    var d := '\n';
    var t := he + ended + (c + "\n" + (rv + "\n"));
    var b := began[..|began| - 1];
    assert began == b + [d];
    NotInAppend(hb, b, d);
    assert hb + began + t == (hb + b) + [d] + t;
    SplitCons(hb + b, d, t);
    CommentTail(he, ended, c, rv);
  }

  /** Every line of `he + ended + (c + "\n" + (rv + "\n"))` is a comment line. */
  lemma CommentTail(he: string, ended: string, c: string, rv: string)
    requires '\n' !in he && '\n' !in c && '\n' !in rv
    requires IsCommentLine(he) && IsCommentLine(c) && IsCommentLine(rv)
    requires DelimiterOnlyAtEnd(ended, '\n')
    ensures forall l <- Split(he + ended + (c + "\n" + (rv + "\n")), '\n') :: IsCommentLine(l)
  {
    EndedLines(he, ended, c, rv);
    var lines := Split(he + ended + (c + "\n" + (rv + "\n")), '\n');
    if |ended| > 0 && ended[|ended| - 1] == '\n' {
      assert lines == [he + ended[..|ended| - 1], c, rv];
    } else {
      assert lines == [he + ended + c, rv];
    }
  }

  lemma CommentsOneLine(p: Provenance)
    requires '\n' !in p.revision
    ensures '\n' !in ConsumedComment(p) && '\n' !in RevisionComment(p)
  {
    var n := ShowNat(p.cpuSeconds);
    assert '\n' !in n by {
      assert forall i :: 0 <= i < |n| ==> IsDigit(n[i]);
    }
    NotInAppend("--COMMENT=program consumed ", n, '\n');
    NotInAppend("--COMMENT=program consumed " + n, " CPU seconds", '\n');
    NotInAppend("--COMMENT=revision ", p.revision, '\n');
  }

  lemma CommentsAreComments(p: Provenance)
    ensures IsCommentLine("--COMMENT=program ended at ")
    ensures IsCommentLine(ConsumedComment(p)) && IsCommentLine(RevisionComment(p))
  {
    var hc := "--COMMENT=program consumed ";
    var hr := "--COMMENT=revision ";
    assert IsCommentLine("--COMMENT=program ended at ");
    assert IsCommentLine(hc) && IsCommentLine(hr);
    var n := ShowNat(p.cpuSeconds);
    CommentLineShape(hc, n);
    CommentLineShape(hc + n, " CPU seconds");
    CommentLineShape(hr, p.revision);
  }

  /** Every line of the provenance text after the first is a comment line, and
      the text ends its last line. */
  lemma ProvenanceLines(p: Provenance)
    requires DelimiterOnlyAtEnd(p.began, '\n') && DelimiterOnlyAtEnd(p.ended, '\n')
    requires '\n' !in p.revision
    ensures var pt := ProvenanceText(p);
      |pt| > 0 && pt[|pt| - 1] == '\n'
    ensures var lines := Split(ProvenanceText(p), '\n');
      |lines| > 0 && forall k :: 1 <= k < |lines| ==> IsCommentLine(lines[k])
  {
    CommentsOneLine(p);
    CommentsAreComments(p);
    var hb := "--COMMENT=program began at ";
    var he := "--COMMENT=program ended at ";
    assert '\n' !in hb && '\n' !in he;
    CommentsAfterFirst(hb, p.began, he, p.ended, ConsumedComment(p), RevisionComment(p));
  }

  /** The text `write` emits is comment lines followed by one `--name=value`
      line per field in the write order, when the time stamps break a line at
      most at their end and the revision text is one line. */
  lemma HeaderTextLines(a: SketchArgs, p: Provenance)
    requires IsWord(a.listfname) && IsWord(a.outfname)
    requires DelimiterOnlyAtEnd(p.began, '\n') && DelimiterOnlyAtEnd(p.ended, '\n')
    requires '\n' !in p.revision
    ensures var ls := Split(HeaderText(a, p), '\n');
      && |ls| > |WriteOrder|
      && ls[|ls| - |WriteOrder|..] == FieldLines(a, WriteOrder)
      && forall k :: 1 <= k < |ls| - |WriteOrder| ==> IsCommentLine(ls[k])
  {
    var fieldLines := FieldLines(a, WriteOrder);
    forall k | 0 <= k < |fieldLines|
      ensures '\n' !in fieldLines[k]
    {
      FieldLineIsLine(a, WriteOrder[k]);
    }
    ProvenanceLines(p);
    var pt := ProvenanceText(p);
    var prov := Split(pt, '\n');
    SplitJoin(fieldLines, '\n');
    SplitAppend(pt, Join(fieldLines, '\n'), '\n');
    var ls := Split(HeaderText(a, p), '\n');
    assert ls == prov + fieldLines;
    assert ls[|ls| - |WriteOrder|..] == fieldLines;
    forall k | 1 <= k < |ls| - |WriteOrder|
      ensures IsCommentLine(ls[k])
    {
      assert ls[k] == prov[k];
    }
  }

  /** Reading a written header into any configuration `a0` restores every field
      `write` emits and keeps the input names of `a0`, provided both file names
      are single words (`>>` stops at whitespace), the time stamps break their
      line at most at their end, and the revision text is one line. */
  lemma HeaderRoundTrip(a0: SketchArgs, a: SketchArgs, p: Provenance, path: string)
    requires IsWord(a.listfname) && IsWord(a.outfname)
    requires DelimiterOnlyAtEnd(p.began, '\n') && DelimiterOnlyAtEnd(p.ended, '\n')
    requires '\n' !in p.revision
    ensures ReadHeaderText(a0, HeaderText(a, p), path) == Ok(a.(infnames := a0.infnames))
  {
    var fieldLines := FieldLines(a, WriteOrder);
    forall k | 0 <= k < |fieldLines|
      ensures '\n' !in fieldLines[k]
    {
      FieldLineIsLine(a, WriteOrder[k]);
    }
    ProvenanceLines(p);
    CommentsThenFields(a0, ProvenanceText(p), fieldLines, path);
    FieldLinesRestore(a0, a, WriteOrder, path);
    RestoredIsWritten(ReadLines(a0, fieldLines, path).value, a, a0.infnames);
  }

  /** Agreeing on every written field and on the input names is agreeing. */
  lemma RestoredIsWritten(c: SketchArgs, a: SketchArgs, infnames: seq<string>)
    requires c.infnames == infnames
    requires forall f :: f in WriteOrder ==> Get(c, f) == Get(a, f)
    ensures c == a.(infnames := infnames)
  {
    var b := a.(infnames := infnames);
    forall f
      ensures Get(c, f) == Get(b, f)
    {
      WriteOrderComplete(f);
      SameFieldsExceptNames(a, b, f);
    }
    SameFields(c, b);
  }

  lemma SameFieldsExceptNames(a: SketchArgs, b: SketchArgs, f: Field)
    requires b == a.(infnames := b.infnames)
    ensures Get(a, f) == Get(b, f)
  {
  }

  /** `write` emits every field. */
  lemma WriteOrderComplete(f: Field)
    ensures f in WriteOrder
  {
    match f
    case BBits => assert WriteOrder[0] == f;
    case IsCasePreserved => assert WriteOrder[1] == f;
    case IsStrandPreserved => assert WriteOrder[2] == f;
    case KmerLen => assert WriteOrder[3] == f;
    case ListFname => assert WriteOrder[4] == f;
    case MinhashType => assert WriteOrder[5] == f;
    case NThreads => assert WriteOrder[6] == f;
    case OutFname => assert WriteOrder[7] == f;
    case RandSeed => assert WriteOrder[8] == f;
    case SketchSize64 => assert WriteOrder[9] == f;
  }

  /** A header made of comment lines followed by the joined `fieldLines` reads
      like `fieldLines` alone. */
  lemma CommentsThenFields(a0: SketchArgs, pt: string, fieldLines: seq<string>, path: string)
    requires |pt| > 0 && pt[|pt| - 1] == '\n'
    requires var lines := Split(pt, '\n');
      |lines| > 0 && forall k :: 1 <= k < |lines| ==> IsCommentLine(lines[k])
    requires forall k :: 0 <= k < |fieldLines| ==> '\n' !in fieldLines[k]
    ensures ReadHeaderText(a0, pt + Join(fieldLines, '\n'), path) == ReadLines(a0, fieldLines, path)
  {
    var prov := Split(pt, '\n');
    var text := pt + Join(fieldLines, '\n');
    TextThenFieldLines(pt, fieldLines);
    var lines := Split(text, '\n');
    assert lines[1..] == prov[1..] + fieldLines;
    ReadHeaderTextLater(a0, text, path);
    CommentLinesIgnored(a0, prov[1..], fieldLines, path);
  }

  /** Newline-ended text followed by joined lines is cut into the text's lines
      and then those lines. */
  lemma TextThenFieldLines(pt: string, fieldLines: seq<string>)
    requires |pt| > 0 && pt[|pt| - 1] == '\n'
    requires forall k :: 0 <= k < |fieldLines| ==> '\n' !in fieldLines[k]
    ensures Split(pt + Join(fieldLines, '\n'), '\n') == Split(pt, '\n') + fieldLines
  {
    SplitJoin(fieldLines, '\n');
    SplitAppend(pt, Join(fieldLines, '\n'), '\n');
  }

  /** A header text with at least one line reads as its lines after the first. */
  lemma ReadHeaderTextLater(a: SketchArgs, text: string, path: string)
    requires |Split(text, '\n')| > 0
    ensures ReadHeaderText(a, text, path) == ReadLines(a, Split(text, '\n')[1..], path)
  {
  }

  /** The same round trip through the file system: what `write` stores under
      `outfname` is what `read` then finds there. */
  lemma WriteThenRead(a0: SketchArgs, a: SketchArgs, p: Provenance, fs: FileSystem)
    requires IsWord(a.listfname) && IsWord(a.outfname)
    requires DelimiterOnlyAtEnd(p.began, '\n') && DelimiterOnlyAtEnd(p.ended, '\n')
    requires '\n' !in p.revision
    requires a.outfname in fs.writable
    ensures WriteHeader(a, p, fs).Ok?
    ensures ReadHeader(a0, a.outfname, WriteHeader(a, p, fs).value) == Ok(a.(infnames := a0.infnames))
  {
    HeaderRoundTrip(a0, a, p, a.outfname);
  }
}

=== FILE: options.dfy ===
/** What the `sketch` and `dist` option parsers share: the `--name=value` token
    shape, typed option values, the four outcomes of classifying one token, and
    the errors a driver stops with. */
module Options {
  import opened Results
  import opened Streams

  /** The C++ type an option's value is read into. */
  datatype Kind = SizeKind | IntKind | BoolKind | WordKind

  /** A typed option value: `size_t`/`uint64_t`, `int`, `bool` or `std::string`. */
  datatype Value = Size(n: U64) | Int(i: I32) | Flag(b: bool) | Word(w: string)

  function KindOf(v: Value): Kind
  {
    match v
    case Size(_) => SizeKind
    case Int(_) => IntKind
    case Flag(_) => BoolKind
    case Word(_) => WordKind
  }

  /** `issval >> field` for a field of kind `k`, where `issval` holds `text`;
      `None` when the extraction sets the fail bit. */
  function ReadValue(k: Kind, text: string): (r: Option<Value>)
    ensures r.Some? ==> KindOf(r.value) == k
    ensures r.Some? && k == WordKind ==> IsWord(r.value.w)
  {
    match k
    case SizeKind => (match ReadUnsigned(text) case Some(n) => Some(Size(n)) case None => None)
    case IntKind => (match ReadSigned(text) case Some(i) => Some(Int(i)) case None => None)
    case BoolKind => (match ReadBool(text) case Some(b) => Some(Flag(b)) case None => None)
    case WordKind => (match ReadWord(text) case Some(w) => Some(Word(w)) case None => None)
  }

  /** What `file << field` writes for the value, with `std::boolalpha` in effect. */
  function ShowValue(v: Value): string
  {
    match v
    case Size(n) => ShowNat(n)
    case Int(i) => ShowInt(i)
    case Flag(b) => ShowBool(b)
    case Word(w) => w
  }

  /** A value that survives being written and read back: a word must be non-empty
      and free of whitespace, since `>>` into a string stops at whitespace. */
  predicate Persistable(v: Value)
  {
    v.Word? ==> IsWord(v.w)
  }

  /** Reading what was written restores the value. */
  lemma ReadShownValue(v: Value)
    requires Persistable(v)
    ensures ReadValue(KindOf(v), ShowValue(v)) == Some(v)
  {
    match v
    case Size(n) =>
      assert KindOf(v) == SizeKind && ShowValue(v) == ShowNat(n);
      ReadShownSize(n);
    case Int(i) =>
      assert KindOf(v) == IntKind && ShowValue(v) == ShowInt(i);
      ReadShownInt(i);
    case Flag(b) =>
      assert KindOf(v) == BoolKind && ShowValue(v) == ShowBool(b);
      ReadShownFlag(b);
    case Word(w) =>
      assert KindOf(v) == WordKind && ShowValue(v) == w;
      ReadShownWord(w);
  }

  lemma ReadShownFlag(b: bool)
    ensures ReadValue(BoolKind, ShowBool(b)) == Some(Flag(b))
  {
    ReadBoolShown(b);
    assert ReadValue(BoolKind, ShowBool(b)) == Some(Flag(ReadBool(ShowBool(b)).value));
  }

  lemma ReadShownSize(n: U64)
    ensures ReadValue(SizeKind, ShowNat(n)) == Some(Size(n))
  {
    ReadUnsignedShown(n, []);
    assert ShowNat(n) + [] == ShowNat(n);
  }

  lemma ReadShownInt(i: I32)
    ensures ReadValue(IntKind, ShowInt(i)) == Some(Int(i))
  {
    ReadSignedShown(i);
  }

  lemma ReadShownWord(w: string)
    requires IsWord(w)
    ensures ReadValue(WordKind, w) == Some(Word(w))
  {
    ReadWordShown(w, []);
    assert w + [] == w;
  }

  lemma DigitsAreOneLine(d: string)
    requires AllDigits(d)
    ensures '\n' !in d
  {
    assert forall k :: 0 <= k < |d| ==> d[k] != '\n';
  }

  lemma IntIsOneLine(i: int)
    ensures '\n' !in ShowInt(i)
  {
    if i < 0 {
      var d := ShowNat(-i);
      DigitsAreOneLine(d);
      assert ShowInt(i) == "-" + d;
      assert forall k :: 0 <= k < |d| + 1 ==> ("-" + d)[k] != '\n';
    } else {
      DigitsAreOneLine(ShowNat(i));
    }
  }

  /** A written value never breaks its line. */
  lemma ShownValueIsOneLine(v: Value)
    requires Persistable(v)
    ensures '\n' !in ShowValue(v)
  {
    match v
    case Size(n) => DigitsAreOneLine(ShowNat(n));
    case Int(i) => IntIsOneLine(i);
    case Flag(b) =>
    case Word(w) =>
      assert forall k :: 0 <= k < |w| ==> w[k] != '\n';
  }

  const HelpFlag: string := "--help"
  const OptionMark: string := "--"
  const CommentKey: string := "--COMMENT"

  /** What `std::getline(iss, key, '=')` extracts: the text before the first `=`,
      or all of it when there is none. */
  function OptionKey(arg: string): (key: string)
    ensures key <= arg && '=' !in key
    ensures |key| < |arg| ==> arg[|key|] == '='
  {
    arg[..IndexOf(arg, '=')]
  }

  /** What the following `std::getline(iss, val)` extracts: the text after the
      first `=` up to the first newline, and nothing when there is no `=`. */
  function OptionText(arg: string): (text: string)
    ensures '\n' !in text
    ensures '=' !in arg ==> text == ""
    ensures '=' in arg ==> text <= arg[|OptionKey(arg)| + 1..]
    ensures '=' in arg ==> var rest := arg[|OptionKey(arg)| + 1..];
      |text| < |rest| ==> rest[|text|] == '\n'
  {
    var i := IndexOf(arg, '=');
    if i == |arg| then "" else var rest := arg[i + 1..]; rest[..IndexOf(rest, '\n')]
  }

  /** A written `key=text` line splits back into its key and its text. */
  lemma OptionLine(key: string, text: string)
    requires '=' !in key && '\n' !in text
    ensures OptionKey(key + "=" + text) == key
    ensures OptionText(key + "=" + text) == text
  {
    var arg := key + "=" + text;
    IndexOfFirst(key, '=', text);
    assert arg[..|key|] == key;
    assert arg[|key| + 1..] == text;
  }

  /** A token whose key does not start with `--` is an input name. */
  predicate IsPositional(arg: string)
  {
    !(OptionMark <= OptionKey(arg))
  }

  /** The input names among `tokens`, in order. */
  function Positionals(tokens: seq<string>): (r: seq<string>)
    ensures |r| <= |tokens|
    ensures forall k :: 0 <= k < |r| ==> IsPositional(r[k]) && r[k] in tokens
    ensures forall k :: 0 <= k < |tokens| && IsPositional(tokens[k]) ==> tokens[k] in r
  {
    if |tokens| == 0 then []
    else (if IsPositional(tokens[0]) then [tokens[0]] else []) + Positionals(tokens[1..])
  }

  /** `issval >> field` as a function of the text, for a field of kind `k`. */
  function Reader(k: Kind): string -> Option<Value>
  {
    text => ReadValue(k, text)
  }

  /** The value token `t` assigns to the option `key` when `read` extracts it. */
  function Assigned<V>(key: string, read: string -> Option<V>, t: string): Option<V>
  {
    if OptionKey(t) == key then read(OptionText(t)) else None
  }

  /** The value an option holds after `tokens`, found from the end: what the last
      token with key `key` assigns, or `start` when no token does. */
  function LastAssigned<V>(start: V, key: string, read: string -> Option<V>, tokens: seq<string>): V
    decreases |tokens|
  {
    if |tokens| == 0 then start
    else match Assigned(key, read, tokens[|tokens| - 1])
      case Some(v) => v
      case None => LastAssigned(start, key, read, tokens[..|tokens| - 1])
  }

  /** One token assigns what it reads, or leaves `start`. */
  lemma LastAssignedOne<V>(start: V, key: string, read: string -> Option<V>, t: string)
    ensures LastAssigned(start, key, read, [t])
      == match Assigned(key, read, t) case Some(v) => v case None => start
  {
    assert [t][|[t]| - 1] == t;
    assert [t][..0] == [];
  }

  /** Applying `xs` and then `ys` leaves what `xs + ys` leaves. */
  lemma {:induction false} LastAssignedAppend<V>(start: V, key: string, read: string -> Option<V>, xs: seq<string>, ys: seq<string>)
    ensures LastAssigned(start, key, read, xs + ys)
      == LastAssigned(LastAssigned(start, key, read, xs), key, read, ys)
    decreases |ys|
  {
    if |ys| == 0 {
      assert xs + ys == xs;
    } else {
      var ys' := ys[..|ys| - 1];
      assert (xs + ys)[|xs + ys| - 1] == ys[|ys| - 1];
      assert (xs + ys)[..|xs + ys| - 1] == xs + ys';
      LastAssignedAppend(start, key, read, xs, ys');
    }
  }

  /** A help request is never taken for an input name. */
  lemma HelpIsNotPositional(arg: string)
    requires HelpFlag <= arg
    ensures !IsPositional(arg)
  {
    assert '=' !in HelpFlag;
    assert OptionKey(arg)[..|HelpFlag|] == HelpFlag;
  }

  /** The outcome of classifying one token (`Sketchargs::_parse`, `Distargs::_parse`). */
  datatype Verdict<+A> = Accepted(args: A) | HelpRequested | UnknownOption | BadValue
  {
    /** The `int` `_parse` returns for this outcome. */
    function Code(): int
    {
      match this
      case Accepted(_) => 0
      case HelpRequested => 1
      case UnknownOption => -1
      case BadValue => -2
    }
  }

  /** Why a command stops before doing its work. */
  datatype CliError =
    | UsageRequested
    | UnrecognizedOption(arg: string)
    | OptionWithoutValue(arg: string)
    | ListFileUnreadable(path: string)
    | WrongArgumentCount
  {
    /** The status `parse` passes to `exit`: every path through `usage` exits
        with 1, an unreadable list file with 4. */
    function ExitStatus(): int
    {
      if ListFileUnreadable? then 4 else 1
    }
  }

  /** How a driver answers a token `_parse` rejected with `code`: `usage`, after an
      "Unrecognized option" message for -1 or an "Option without value" message
      for -2. */
  function Complaint(code: int, arg: string): (e: CliError)
    requires code in {1, -1, -2}
    ensures e.UsageRequested? <==> code == 1
    ensures e.UnrecognizedOption? <==> code == -1
    ensures e.OptionWithoutValue? <==> code == -2
    ensures e.UnrecognizedOption? || e.OptionWithoutValue? ==> e.arg == arg
    ensures e.ExitStatus() == 1
  {
    if code == 1 then UsageRequested
    else if code == -1 then UnrecognizedOption(arg)
    else OptionWithoutValue(arg)
  }

  /** The tokens a subcommand's `parse` looks at: `argv[2..]`, after the program
      and subcommand names. */
  function CommandTokens(argv: seq<string>): (tokens: seq<string>)
    ensures |argv| > 2 ==> |tokens| == |argv| - 2 && tokens[0] == argv[2]
    ensures |argv| <= 2 ==> tokens == []
    ensures forall k :: 0 <= k < |tokens| ==> tokens[k] == argv[k + 2]
  {
    if |argv| <= 2 then [] else argv[2..]
  }
}

=== FILE: results.dfy ===
/** The failure-carrying datatypes used throughout the model in place of the
    program's calls to `exit` and `usage`. */
module Results {

  /** A value that may be absent, e.g. a failed stream extraction. */
  datatype Option<+T> = None | Some(value: T)

  /** The outcome of an operation that either produces a value or stops the command. */
  datatype Result<+T, +E> = Ok(value: T) | Err(error: E)
}

=== FILE: sketch.dfy ===
/** The `sketch` command's configuration (`Sketchargs`) and its option parser:
    the one-token classifier `_parse` and the driver `parse` with its fallback
    to a list of input names read from standard input or from `--listfname`. */
module Sketch {
  import opened Results
  import opened Streams
  import opened Options

  /** The options of `Sketchargs` that carry a value. */
  datatype Field =
    | BBits | IsCasePreserved | IsStrandPreserved | KmerLen | ListFname
    | MinhashType | NThreads | OutFname | RandSeed | SketchSize64

  /** The key that sets the field. */
  function Name(f: Field): string
  {
    match f
    case BBits => "--bbits"
    case IsCasePreserved => "--iscasepreserved"
    case IsStrandPreserved => "--isstrandpreserved"
    case KmerLen => "--kmerlen"
    case ListFname => "--listfname"
    case MinhashType => "--minhashtype"
    case NThreads => "--nthreads"
    case OutFname => "--outfname"
    case RandSeed => "--randseed"
    case SketchSize64 => "--sketchsize64"
  }

  /** The C++ type of the field. */
  function FieldKind(f: Field): Kind
  {
    match f
    case BBits => SizeKind
    case IsCasePreserved => BoolKind
    case IsStrandPreserved => BoolKind
    case KmerLen => SizeKind
    case ListFname => WordKind
    case MinhashType => IntKind
    case NThreads => SizeKind
    case OutFname => WordKind
    case RandSeed => SizeKind
    case SketchSize64 => SizeKind
  }

  /** The field a key names, looked up in the order of the `if` chain of `Sketchargs::_parse`. */
  function FieldNamed(key: string): (r: Option<Field>)
    ensures r.Some? ==> Name(r.value) == key
    ensures r.None? ==> forall f :: Name(f) != key
  {
    if key == "--bbits" then Some(BBits)
    else if key == "--iscasepreserved" then Some(IsCasePreserved)
    else if key == "--isstrandpreserved" then Some(IsStrandPreserved)
    else if key == "--kmerlen" then Some(KmerLen)
    else if key == "--listfname" then Some(ListFname)
    else if key == "--minhashtype" then Some(MinhashType)
    else if key == "--nthreads" then Some(NThreads)
    else if key == "--outfname" then Some(OutFname)
    else if key == "--randseed" then Some(RandSeed)
    else if key == "--sketchsize64" then Some(SketchSize64)
    else None
  }

  /** No two fields share a key, so each key names exactly its field. */
  lemma FieldNamedName(f: Field)
    ensures FieldNamed(Name(f)) == Some(f)
  {
  }

  /** No other field shares the key of `f`. */
  lemma NamesDistinct(f: Field)
    ensures forall g :: Name(g) == Name(f) ==> g == f
  {
    forall g | Name(g) == Name(f)
      ensures g == f
    {
      FieldNamedName(f);
      FieldNamedName(g);
    }
  }

  /** Every key is an option key: it starts with `--`, has no `=`, and is neither a
      help request nor the comment key. */
  lemma NameShape(f: Field)
    ensures OptionMark <= Name(f) && '=' !in Name(f)
    ensures !(HelpFlag <= Name(f)) && Name(f) != CommentKey
  {
    assert Name(f)[2] != HelpFlag[2] && Name(f)[2] != CommentKey[2];
  }

  /** The configuration of one `sketch` run. */
  datatype SketchArgs = SketchArgs(
    infnames: seq<string>,
    bbits: U64,
    iscasepreserved: bool,
    isstrandpreserved: bool,
    listfname: string,
    kmerlen: U64,
    minhashtype: I32,
    nthreads: U64,
    outfname: string,
    randseed: U64,
    sketchsize64: U64)

  /** A freshly constructed `Sketchargs`; `now` stands for `time(NULL)`, which names
      the default output. The defaults are the ones a written header can carry:
      both file names are single words. */
  function DefaultSketchArgs(now: int): (a: SketchArgs)
    ensures a.infnames == []
    ensures a.listfname == "-"
    ensures IsWord(a.listfname) && IsWord(a.outfname)
  {
    var stamp := ShowInt(now);
    var out := "sketch-at-time-" + stamp;
    assert forall k :: 0 <= k < |stamp| ==> out[15 + k] == stamp[k];
    SketchArgs([], 14, false, false, "-", 21, 2, 1, out, 41, 32)
  }

  /** The value of field `f`. */
  function Get(a: SketchArgs, f: Field): (v: Value)
    ensures KindOf(v) == FieldKind(f)
  {
    match f
    case BBits => Size(a.bbits)
    case IsCasePreserved => Flag(a.iscasepreserved)
    case IsStrandPreserved => Flag(a.isstrandpreserved)
    case KmerLen => Size(a.kmerlen)
    case ListFname => Word(a.listfname)
    case MinhashType => Int(a.minhashtype)
    case NThreads => Size(a.nthreads)
    case OutFname => Word(a.outfname)
    case RandSeed => Size(a.randseed)
    case SketchSize64 => Size(a.sketchsize64)
  }

  /** `a` with field `f` assigned: that field reads `v` afterwards and nothing
      else changes. */
  function Set(a: SketchArgs, f: Field, v: Value): (b: SketchArgs)
    requires KindOf(v) == FieldKind(f)
    ensures Get(b, f) == v
    ensures b.infnames == a.infnames
    ensures forall g :: g != f ==> Get(b, g) == Get(a, g)
  {
    match f
    case BBits => a.(bbits := v.n)
    case IsCasePreserved => a.(iscasepreserved := v.b)
    case IsStrandPreserved => a.(isstrandpreserved := v.b)
    case KmerLen => a.(kmerlen := v.n)
    case ListFname => a.(listfname := v.w)
    case MinhashType => a.(minhashtype := v.i)
    case NThreads => a.(nthreads := v.n)
    case OutFname => a.(outfname := v.w)
    case RandSeed => a.(randseed := v.n)
    case SketchSize64 => a.(sketchsize64 := v.n)
  }

  /** Two configurations with the same input names and the same value in every
      field are the same configuration. */
  lemma SameFields(x: SketchArgs, y: SketchArgs)
    requires x.infnames == y.infnames
    requires forall f :: Get(x, f) == Get(y, f)
    ensures x == y
  {
    assert Get(x, BBits) == Get(y, BBits);
    assert Get(x, IsCasePreserved) == Get(y, IsCasePreserved);
    assert Get(x, IsStrandPreserved) == Get(y, IsStrandPreserved);
    assert Get(x, KmerLen) == Get(y, KmerLen);
    assert Get(x, ListFname) == Get(y, ListFname);
    assert Get(x, MinhashType) == Get(y, MinhashType);
    assert Get(x, NThreads) == Get(y, NThreads);
    assert Get(x, OutFname) == Get(y, OutFname);
    assert Get(x, RandSeed) == Get(y, RandSeed);
    assert Get(x, SketchSize64) == Get(y, SketchSize64);
  }

  /** The code `_parse` returns for `arg`, stated from the token alone: 1 for a help
      request, -1 for a `--` key that is neither a field nor the comment key, -2
      for a field whose value does not read, and 0 otherwise. */
  ghost function SketchCode(arg: string): int
  {
    if HelpFlag <= arg then 1
    else if IsPositional(arg) || OptionKey(arg) == CommentKey then 0
    else if exists f :: Name(f) == OptionKey(arg) && ReadValue(FieldKind(f), OptionText(arg)).None? then -2
    else if exists f :: Name(f) == OptionKey(arg) then 0
    else -1
  }

  /** `Sketchargs::_parse`: classifies one token and, when it is accepted, applies
      it. A help request wins over everything; an input name is appended; the
      comment key is ignored; a field key sets that field alone. */
  function ParseSketchToken(a: SketchArgs, arg: string): (r: Verdict<SketchArgs>)
    ensures !(HelpFlag <= arg) && IsPositional(arg) ==>
      r == Accepted(a.(infnames := a.infnames + [arg]))
    ensures !(HelpFlag <= arg) && OptionKey(arg) == CommentKey ==> r == Accepted(a)
    ensures forall f :: Name(f) == OptionKey(arg) && r.Accepted? ==>
      && r.args.infnames == a.infnames
      && ReadValue(FieldKind(f), OptionText(arg)) == Some(Get(r.args, f))
      && (forall g :: g != f ==> Get(r.args, g) == Get(a, g))
  {
    var key := OptionKey(arg);
    if HelpFlag <= arg then HelpRequested
    else match FieldNamed(key)
      case Some(f) =>
        NameShape(f);
        NamesDistinct(f);
        (match ReadValue(FieldKind(f), OptionText(arg))
         case Some(v) => Accepted(Set(a, f, v))
         case None => BadValue)
      case None =>
        if key == CommentKey then Accepted(a)
        else if !(OptionMark <= key) then Accepted(a.(infnames := a.infnames + [arg]))
        else UnknownOption
  }

  /** The outcome of `_parse` depends on the token alone, never on the
      configuration it is applied to. */
  lemma ParseSketchTokenCode(a: SketchArgs, arg: string)
    ensures ParseSketchToken(a, arg).Code() == SketchCode(arg)
  {
    var key := OptionKey(arg);
    if !(HelpFlag <= arg) {
      match FieldNamed(key)
      case Some(f) =>
        NameShape(f);
        assert !IsPositional(arg);
        assert key != CommentKey;
        FieldNamedName(f);
        forall g | Name(g) == key
          ensures g == f
        {
          FieldNamedName(g);
        }
      case None =>
    }
  }

  /** The loop of `Sketchargs::parse` over the option tokens: every token is applied
      in order, and the first rejected one stops the command with `usage`. */
  function ParseSketchTokens(a: SketchArgs, tokens: seq<string>): (r: Result<SketchArgs, CliError>)
    ensures r.Ok? <==> forall i :: 0 <= i < |tokens| ==> SketchCode(tokens[i]) == 0
    ensures r.Ok? ==> r.value.infnames == a.infnames + Positionals(tokens)
    ensures r.Err? ==> FirstRejection(tokens, r.error)
    decreases |tokens|
  {
    if |tokens| == 0 then Ok(a)
    else
      var v := ParseSketchToken(a, tokens[0]);
      ParseSketchTokenCode(a, tokens[0]);
      if v.Accepted? then
        var r := ParseSketchTokens(v.args, tokens[1..]);
        FirstRejectionLater(tokens, r);
        PositionalStep(a, tokens[0]);
        r
      else
        assert FirstRejection(tokens, Complaint(v.Code(), tokens[0])) by {
          assert FirstRejectedAt(tokens, 0);
        }
        Err(Complaint(v.Code(), tokens[0]))
  }

  /** Token `i` is the first one `_parse` does not accept. */
  ghost predicate FirstRejectedAt(tokens: seq<string>, i: int)
  {
    && 0 <= i < |tokens| && SketchCode(tokens[i]) != 0
    && (forall j :: 0 <= j < i ==> SketchCode(tokens[j]) == 0)
  }

  /** `e` is how the first token with a non-zero code stops the command. */
  ghost predicate FirstRejection(tokens: seq<string>, e: CliError)
  {
    exists i :: FirstRejectedAt(tokens, i) && e == Complaint(SketchCode(tokens[i]), tokens[i])
  }

  /** Behind an accepted token, the first rejection moves one place on. */
  lemma FirstRejectedLater(tokens: seq<string>, i: int)
    requires |tokens| > 0 && SketchCode(tokens[0]) == 0
    requires FirstRejectedAt(tokens[1..], i)
    ensures FirstRejectedAt(tokens, i + 1) && tokens[i + 1] == tokens[1..][i]
  {
    forall j | 0 < j < i + 1
      ensures SketchCode(tokens[j]) == 0
    {
      assert tokens[j] == tokens[1..][j - 1];
    }
  }

  lemma FirstRejectionLater(tokens: seq<string>, r: Result<SketchArgs, CliError>)
    requires |tokens| > 0 && SketchCode(tokens[0]) == 0
    requires r.Err? ==> FirstRejection(tokens[1..], r.error)
    ensures r.Err? ==> FirstRejection(tokens, r.error)
  {
    if r.Err? {
      var i :| FirstRejectedAt(tokens[1..], i)
        && r.error == Complaint(SketchCode(tokens[1..][i]), tokens[1..][i]);
      FirstRejectedLater(tokens, i);
    }
  }

  /** An accepted token adds itself to the input names exactly when it is one. */
  lemma PositionalStep(a: SketchArgs, arg: string)
    requires ParseSketchToken(a, arg).Accepted?
    ensures ParseSketchToken(a, arg).args.infnames
      == a.infnames + (if IsPositional(arg) then [arg] else [])
  {
    if HelpFlag <= arg {
      HelpIsNotPositional(arg);
    } else if !IsPositional(arg) && OptionKey(arg) != CommentKey {
      match FieldNamed(OptionKey(arg))
      case Some(f) =>
      case None =>
    }
  }

  /** The value field `f` holds after the option tokens, found from the end: what
      the last token with the field's key reads, or the value it had before. */
  function SketchSetting(a: SketchArgs, f: Field, tokens: seq<string>): Value
  {
    LastAssigned(Get(a, f), Name(f), Reader(FieldKind(f)), tokens)
  }

  /** One accepted token assigns field `f` exactly when its key is the field's. */
  lemma TokenAssigns(a: SketchArgs, t: string, f: Field)
    requires ParseSketchToken(a, t).Accepted?
    ensures Get(ParseSketchToken(a, t).args, f) == SketchSetting(a, f, [t])
  {
    var b := ParseSketchToken(a, t).args;
    LastAssignedOne(Get(a, f), Name(f), Reader(FieldKind(f)), t);
    if OptionKey(t) == Name(f) {
      assert ReadValue(FieldKind(f), OptionText(t)) == Some(Get(b, f));
      assert Reader(FieldKind(f))(OptionText(t)) == Some(Get(b, f));
    } else {
      assert Assigned(Name(f), Reader(FieldKind(f)), t) == None;
      OtherKeyKeeps(a, t, f);
    }
  }

  /** An accepted token with another key leaves field `f` alone. */
  lemma OtherKeyKeeps(a: SketchArgs, t: string, f: Field)
    requires ParseSketchToken(a, t).Accepted? && OptionKey(t) != Name(f)
    ensures Get(ParseSketchToken(a, t).args, f) == Get(a, f)
  {
    var b := ParseSketchToken(a, t).args;
    var key := OptionKey(t);
    ParseSketchTokenCode(a, t);
    if HelpFlag <= t {
    } else if IsPositional(t) {
      InputsLeaveFields(a);
    } else if key == CommentKey {
      assert b == a;
    } else {
      match FieldNamed(key)
      case Some(g) =>
      case None =>
    }
  }

  /** After a run of accepted tokens every field holds what the last token naming
      it assigned, or its earlier value when none does. */
  lemma {:induction false} ParseSketchTokensFields(a: SketchArgs, tokens: seq<string>)
    requires ParseSketchTokens(a, tokens).Ok?
    ensures forall f :: Get(ParseSketchTokens(a, tokens).value, f) == SketchSetting(a, f, tokens)
    decreases |tokens|
  {
    if |tokens| == 0 {
    } else {
      var t := tokens[0];
      var v := ParseSketchToken(a, t);
      ParseSketchTokenCode(a, t);
      assert SketchCode(tokens[0]) == 0;
      assert v.Accepted?;
      var final := ParseSketchTokens(v.args, tokens[1..]);
      assert ParseSketchTokens(a, tokens) == final;
      ParseSketchTokensFields(v.args, tokens[1..]);
      assert tokens == [t] + tokens[1..];
      forall f
        ensures Get(final.value, f) == SketchSetting(a, f, tokens)
      {
        SettingAfter(a, t, tokens[1..], f);
      }
    }
  }

  /** What field `f` holds after `[t] + rest` is what it holds after `rest`,
      starting from the configuration `t` produced. */
  lemma SettingAfter(a: SketchArgs, t: string, rest: seq<string>, f: Field)
    requires ParseSketchToken(a, t).Accepted?
    ensures SketchSetting(a, f, [t] + rest) == SketchSetting(ParseSketchToken(a, t).args, f, rest)
  {
    TokenAssigns(a, t, f);
    LastAssignedAppend(Get(a, f), Name(f), Reader(FieldKind(f)), [t], rest);
  }

  /** `Sketchargs::parse`. The options after the subcommand are applied first. If no
      input name was given, the names are then the lines of standard input (when
      `--listfname` is `-`, where a line `--help` asks for usage instead) or the
      lines of the list file, which must be readable. Only the input names change
      after the options. */
  function ParseSketchArgs(init: SketchArgs, argv: seq<string>, stdin: string, fs: FileSystem)
    : (r: Result<SketchArgs, CliError>)
    ensures var t := ParseSketchTokens(init, CommandTokens(argv));
      && (t.Err? ==> r == t)
      && (r.Ok? ==> t.Ok? && r.value.(infnames := []) == t.value.(infnames := []))
    ensures r.Ok? ==> forall f :: Get(r.value, f) == SketchSetting(init, f, CommandTokens(argv))
    ensures var p := init.infnames + Positionals(CommandTokens(argv));
      && (r.Ok? && |p| > 0 ==> r.value.infnames == p)
      && (r.Ok? && |p| == 0 && r.value.listfname == "-" ==>
            r.value.infnames == Split(stdin, '\n') && HelpFlag !in r.value.infnames)
      && (r.Ok? && |p| == 0 && r.value.listfname != "-" ==>
            r.value.listfname in fs.contents
            && r.value.infnames == Split(fs.contents[r.value.listfname], '\n'))
    ensures var t := ParseSketchTokens(init, CommandTokens(argv));
      t.Ok? && r.Err? ==>
        && |t.value.infnames| == 0
        && ((t.value.listfname == "-" && HelpFlag in Split(stdin, '\n') && r.error == UsageRequested)
            || (t.value.listfname != "-" && t.value.listfname !in fs.contents
                && r.error == ListFileUnreadable(t.value.listfname)))
  {
    match ParseSketchTokens(init, CommandTokens(argv))
    case Err(e) => Err(e)
    case Ok(a) =>
      ParseSketchTokensFields(init, CommandTokens(argv));
      InputsLeaveFields(a);
      if |a.infnames| == 0 && a.listfname == "-" then
        var lines := Split(stdin, '\n');
        if HelpFlag in lines then Err(UsageRequested) else Ok(a.(infnames := lines))
      else if |a.infnames| == 0 then
        if a.listfname in fs.contents then Ok(a.(infnames := Split(fs.contents[a.listfname], '\n')))
        else Err(ListFileUnreadable(a.listfname))
      else Ok(a)
  }

  /** Replacing the input names leaves every field as it was. */
  lemma InputsLeaveFields(a: SketchArgs)
    ensures forall names: seq<string>, f :: Get(a.(infnames := names), f) == Get(a, f)
  {
  }

  /** `sketch --bbits=10 --kmerlen=15 file1.fa file2.fa`: both options are set,
      the two names are the inputs, and nothing else departs from the defaults. */
  lemma OptionsExample(argv: seq<string>, now: int, stdin: string, fs: FileSystem)
    requires argv == ["bindash", "sketch", "--bbits=10", "--kmerlen=15", "file1.fa", "file2.fa"]
    ensures ParseSketchArgs(DefaultSketchArgs(now), argv, stdin, fs)
      == Ok(DefaultSketchArgs(now).(bbits := 10, kmerlen := 15, infnames := ["file1.fa", "file2.fa"]))
  {
    var d := DefaultSketchArgs(now);
    var tokens := CommandTokens(argv);
    assert tokens == ["--bbits=10", "--kmerlen=15", "file1.fa", "file2.fa"];
    var r := OptionsExampleTokens(d, tokens);
    assert r == d.(bbits := 10, kmerlen := 15, infnames := ["file1.fa", "file2.fa"]);
  }

  lemma OptionsExampleTokens(a: SketchArgs, tokens: seq<string>) returns (r: SketchArgs)
    requires a.infnames == []
    requires tokens == ["--bbits=10", "--kmerlen=15", "file1.fa", "file2.fa"]
    ensures ParseSketchTokens(a, tokens) == Ok(r)
    ensures r == a.(bbits := 10, kmerlen := 15, infnames := ["file1.fa", "file2.fa"])
  {
    assert '=' !in "file1.fa" && "file1.fa"[0] != '-';
    assert '=' !in "file2.fa" && "file2.fa"[0] != '-';
    assert [] + ["file1.fa"] + ["file2.fa"] == ["file1.fa", "file2.fa"];
    var b := BBitsTen(a);
    var k := KmerLenFifteen(b);
    var f1 := InputStep(k, "file1.fa");
    var f2 := InputStep(f1, "file2.fa");
    AcceptedToken(a, tokens, b);
    AcceptedToken(b, tokens[1..], k);
    AcceptedToken(k, tokens[2..], f1);
    assert tokens[2..][1..] == tokens[3..];
    AcceptedToken(f1, tokens[3..], f2);
    assert tokens[3..][1..] == [];
    r := f2;
  }

  /** An accepted first token hands the rest to the configuration it produced. */
  lemma AcceptedToken(a: SketchArgs, tokens: seq<string>, b: SketchArgs)
    requires |tokens| > 0 && ParseSketchToken(a, tokens[0]) == Accepted(b)
    ensures ParseSketchTokens(a, tokens) == ParseSketchTokens(b, tokens[1..])
  {
  }

  lemma BBitsTen(a: SketchArgs) returns (b: SketchArgs)
    ensures ParseSketchToken(a, "--bbits=10") == Accepted(b)
    ensures b == a.(bbits := 10)
  {
    ReadShownSize(10);
    assert ShowNat(10) == "10";
    assert "--bbits=10" == Name(BBits) + "=" + "10";
    b := OptionStep(a, BBits, "10", Size(10));
  }

  lemma KmerLenFifteen(a: SketchArgs) returns (b: SketchArgs)
    ensures ParseSketchToken(a, "--kmerlen=15") == Accepted(b)
    ensures b == a.(kmerlen := 15)
  {
    ReadShownSize(15);
    assert ShowNat(15) == "15";
    assert "--kmerlen=15" == Name(KmerLen) + "=" + "15";
    b := OptionStep(a, KmerLen, "15", Size(15));
  }

  /** A well-formed `--name=text` token for field `f` sets that field to `v`. */
  lemma OptionStep(a: SketchArgs, f: Field, text: string, v: Value) returns (b: SketchArgs)
    requires '\n' !in text && ReadValue(FieldKind(f), text) == Some(v)
    ensures ParseSketchToken(a, Name(f) + "=" + text) == Accepted(b)
    ensures b == Set(a, f, v)
  {
    NameShape(f);
    OptionLine(Name(f), text);
    FieldNamedName(f);
    assert (Name(f) + "=" + text)[2] == Name(f)[2];
    b := Set(a, f, v);
  }

  /** A token without `=` or a leading `--` is appended to the inputs. */
  lemma InputStep(a: SketchArgs, arg: string) returns (b: SketchArgs)
    requires '=' !in arg && |arg| > 0 && arg[0] != '-'
    ensures ParseSketchToken(a, arg) == Accepted(b)
    ensures b == a.(infnames := a.infnames + [arg])
  {
    assert OptionKey(arg) == arg;
    assert arg[0] != HelpFlag[0];
    b := a.(infnames := a.infnames + [arg]);
  }
}

=== FILE: streams.dfy ===
/** The text-stream behaviour the command layer relies on: how `std::getline`
    cuts a stream into pieces, how `>>` reads numbers, booleans and words (as
    libstdc++ does it in the "C" locale), and how `<<` prints them. */
module Streams {
  import opened Results

  /** `size_t` and `uint64_t` on a 64-bit target. */
  type U64 = n: int | 0 <= n < 0x1_0000_0000_0000_0000

  /** `int` on the targets the tool is built for. */
  type I32 = n: int | -0x8000_0000 <= n < 0x8000_0000

  const U64Max: int := 0xFFFF_FFFF_FFFF_FFFF
  const U64Modulus: int := 0x1_0000_0000_0000_0000

  /** The files a command can see: the text of each readable path, and the paths
      that can be opened for writing. */
  datatype FileSystem = FileSystem(contents: map<string, string>, writable: set<string>)

  /** The characters `std::isspace` accepts in the "C" locale. */
  predicate IsSpace(c: char) {
    c == ' ' || c == '\t' || c == '\n' || c == '\r' || c == 11 as char || c == 12 as char
  }

  predicate IsDigit(c: char) {
    '0' <= c <= '9'
  }

  predicate AllDigits(s: string) {
    forall i :: 0 <= i < |s| ==> IsDigit(s[i])
  }

  /** A text that `>>` into a `std::string` reads back whole: non-empty and free of
      whitespace. */
  predicate IsWord(s: string) {
    |s| > 0 && forall i :: 0 <= i < |s| ==> !IsSpace(s[i])
  }

  /** True iff the only occurrence of `d` in `s`, if any, is its last character. */
  predicate DelimiterOnlyAtEnd(s: string, d: char) {
    forall i :: 0 <= i < |s| - 1 ==> s[i] != d
  }

  // ---------------------------------------------------------------------------
  // std::getline

  /** The position of the first `d` in `s`, or `|s|` when there is none. */
  function IndexOf(s: string, d: char): (i: nat)
    ensures i <= |s|
    ensures i < |s| ==> s[i] == d
    ensures forall j :: 0 <= j < i ==> s[j] != d
  {
    if |s| == 0 || s[0] == d then 0 else 1 + IndexOf(s[1..], d)
  }

  /** The pieces that repeated `std::getline(stream, piece, d)` extracts from a
      stream holding `s`: a last piece is extracted even without a closing
      delimiter, while a closing delimiter does not yield an empty last piece. */
  function Split(s: string, d: char): (r: seq<string>)
    ensures |r| > 0 <==> |s| > 0
    ensures forall k :: 0 <= k < |r| ==> d !in r[k]
    decreases |s|
  {
    if |s| == 0 then []
    else
      var i := IndexOf(s, d);
      if i == |s| then [s] else [s[..i]] + Split(s[i + 1..], d)
  }

  /** The text that writing every piece followed by `d` produces. */
  function Join(pieces: seq<string>, d: char): string
  {
    if |pieces| == 0 then [] else pieces[0] + [d] + Join(pieces[1..], d)
  }

  lemma NotInAppend(x: string, y: string, d: char)
    requires d !in x && d !in y
    ensures d !in x + y
  {
    assert forall i :: 0 <= i < |x + y| ==> (x + y)[i] == if i < |x| then x[i] else y[i - |x|];
  }

  /** Where a text that may only end with `d` has no `d` left once its last
      character is gone. */
  lemma DelimiterOnlyAtEndParts(s: string, d: char)
    requires DelimiterOnlyAtEnd(s, d)
    ensures |s| > 0 && s[|s| - 1] == d ==> d !in s[..|s| - 1] && s == s[..|s| - 1] + [d]
    ensures !(|s| > 0 && s[|s| - 1] == d) ==> d !in s
  {
    if |s| > 0 {
      assert forall i :: 0 <= i < |s| - 1 ==> s[..|s| - 1][i] == s[i];
    }
  }

  /** A last piece without a delimiter is read whole. */
  lemma SplitLast(l: string, d: char)
    requires |l| > 0 && d !in l
    ensures Split(l, d) == [l]
  {
    assert IndexOf(l, d) == |l|;
  }

  lemma IndexOfFirst(l: string, d: char, rest: string)
    requires d !in l
    ensures IndexOf(l + [d] + rest, d) == |l|
  {
    var s := l + [d] + rest;
    assert s[|l|] == d;
    assert forall j :: 0 <= j < |l| ==> s[j] == l[j];
  }

  /** One delimited piece at the front of a stream is extracted as is. */
  lemma SplitCons(l: string, d: char, rest: string)
    requires d !in l
    ensures Split(l + [d] + rest, d) == [l] + Split(rest, d)
  {
    var s := l + [d] + rest;
    IndexOfFirst(l, d, rest);
    assert s[..|l|] == l;
    assert s[|l| + 1..] == rest;
  }

  /** A stream whose first part ends with the delimiter is split part by part. */
  lemma {:induction false} SplitAppend(x: string, y: string, d: char)
    requires |x| > 0 ==> x[|x| - 1] == d
    ensures Split(x + y, d) == Split(x, d) + Split(y, d)
    decreases |x|
  {
    if |x| == 0 {
      assert x + y == y;
    } else {
      var l, x' := FirstPiece(x, d);
      SplitCons(l, d, x');
      SplitCons(l, d, x' + y);
      SplitAppend(x', y, d);
      ConcatAssoc(l + [d], x', y);
      PiecesAssoc([l], Split(x', d), Split(y, d));
    }
  }

  /** A text ending with the delimiter is a first piece, the delimiter and the
      rest, which still ends with the delimiter. */
  lemma FirstPiece(x: string, d: char) returns (l: string, x': string)
    requires |x| > 0 && x[|x| - 1] == d
    ensures d !in l && x == l + [d] + x' && |x'| < |x|
    ensures |x'| > 0 ==> x'[|x'| - 1] == d
  {
    var i := IndexOf(x, d);
    l, x' := x[..i], x[i + 1..];
    assert x == l + [d] + x';
  }

  lemma ConcatAssoc(a: string, b: string, c: string)
    ensures a + b + c == a + (b + c)
  {
  }

  lemma PiecesAssoc(a: seq<string>, b: seq<string>, c: seq<string>)
    ensures a + b + c == a + (b + c)
  {
  }

  /** Splitting what `Join` wrote gives back the pieces. */
  lemma {:induction false} SplitJoin(pieces: seq<string>, d: char)
    requires forall k :: 0 <= k < |pieces| ==> d !in pieces[k]
    ensures Split(Join(pieces, d), d) == pieces
  {
    if |pieces| > 0 {
      SplitCons(pieces[0], d, Join(pieces[1..], d));
      SplitJoin(pieces[1..], d);
    }
  }

  // ---------------------------------------------------------------------------
  // operator<< (what the writers print)

  function Digit(n: nat): (c: char)
    requires n < 10
    ensures IsDigit(c)
  {
    (('0' as int) + n) as char
  }

  function DigitValue(c: char): (n: nat)
    requires IsDigit(c)
    ensures n < 10
  {
    c as int - '0' as int
  }

  /** The number a run of decimal digits denotes. */
  function DigitsValue(s: string): nat
    requires AllDigits(s)
    decreases |s|
  {
    if |s| == 0 then 0 else 10 * DigitsValue(s[..|s| - 1]) + DigitValue(s[|s| - 1])
  }

  /** The decimal text `<<` prints for a non-negative integer. */
  function ShowNat(n: nat): (r: string)
    ensures |r| > 0 && AllDigits(r)
    ensures DigitsValue(r) == n
    ensures |r| > 1 ==> r[0] != '0'
    decreases n
  {
    if n < 10 then [Digit(n)]
    else
      var p := ShowNat(n / 10);
      var r := p + [Digit(n % 10)];
      assert r[..|r| - 1] == p;
      r
  }

  /** The decimal text `<<` prints for any integer. */
  function ShowInt(n: int): (r: string)
    ensures IsWord(r)
    ensures AllDigits(r) <==> n >= 0
  {
    if n < 0 then
      var r := "-" + ShowNat(-n);
      assert !IsDigit(r[0]);
      r
    else ShowNat(n)
  }

  /** What `<<` prints for a bool under `std::boolalpha`. */
  function ShowBool(b: bool): string
  {
    if b then "true" else "false"
  }

  // ---------------------------------------------------------------------------
  // operator>> (what the readers accept)

  /** What is left of `s` once the leading whitespace that `>>` skips is gone. */
  function SkipSpace(s: string): (r: string)
    ensures |r| <= |s| && r == s[|s| - |r|..]
    ensures |r| > 0 ==> !IsSpace(r[0])
    ensures forall i :: 0 <= i < |s| - |r| ==> IsSpace(s[i])
  {
    if |s| > 0 && IsSpace(s[0]) then SkipSpace(s[1..]) else s
  }

  /** The longest run of decimal digits at the front of `s`. */
  function DigitPrefix(s: string): (r: string)
    ensures r <= s && AllDigits(r)
    ensures |r| < |s| ==> !IsDigit(s[|r|])
  {
    if |s| > 0 && IsDigit(s[0]) then [s[0]] + DigitPrefix(s[1..]) else []
  }

  /** The longest whitespace-free run at the front of `s`. */
  function WordPrefix(s: string): (r: string)
    ensures r <= s
    ensures forall i :: 0 <= i < |r| ==> !IsSpace(r[i])
    ensures |r| < |s| ==> IsSpace(s[|r|])
  {
    if |s| > 0 && !IsSpace(s[0]) then [s[0]] + WordPrefix(s[1..]) else []
  }

  /** The sign and magnitude an integer extraction reads from `s`: whitespace is
      skipped, one optional sign is taken, then the longest run of digits;
      anything after the digits is left unread. No digits is a failure. */
  function ScanInteger(s: string): (r: Option<(bool, nat)>)
  {
    var t := SkipSpace(s);
    var negative := |t| > 0 && t[0] == '-';
    var body := if |t| > 0 && (t[0] == '-' || t[0] == '+') then t[1..] else t;
    var digits := DigitPrefix(body);
    if |digits| == 0 then None else Some((negative, DigitsValue(digits)))
  }

  /** `>>` into an unsigned 64-bit variable: a magnitude above 2^64 - 1 fails, and
      a minus sign negates modulo 2^64. */
  function ReadUnsigned(s: string): (r: Option<U64>)
    ensures r.Some? ==> ScanInteger(s).Some?
  {
    match ScanInteger(s)
    case None => None
    case Some((negative, m)) =>
      if m > U64Max then None
      else if negative then Some(if m == 0 then 0 else U64Modulus - m)
      else Some(m)
  }

  /** `>>` into an `int`: the value is read as a `long` and must then lie in the
      range of `int`. */
  function ReadSigned(s: string): (r: Option<I32>)
    ensures r.Some? ==> ScanInteger(s).Some?
  {
    match ScanInteger(s)
    case None => None
    case Some((negative, m)) =>
      var v: int := if negative then -(m as int) else m;
      if -0x8000_0000 <= v < 0x8000_0000 then Some(v) else None
  }

  /** `>>` into a bool under `std::boolalpha`: after whitespace, the text must start
      with the full name `true` or `false`. */
  function ReadBool(s: string): Option<bool>
  {
    var t := SkipSpace(s);
    if "true" <= t then Some(true) else if "false" <= t then Some(false) else None
  }

  /** `>>` into a `std::string`: whitespace is skipped and the next run of
      non-whitespace is read; there must be one. */
  function ReadWord(s: string): (r: Option<string>)
    ensures r.Some? ==> IsWord(r.value)
  {
    var w := WordPrefix(SkipSpace(s));
    if |w| == 0 then None else Some(w)
  }

  // ---------------------------------------------------------------------------
  // What `<<` prints, `>>` reads back.

  lemma {:induction false} DigitPrefixOfDigits(d: string, rest: string)
    requires AllDigits(d)
    requires |rest| == 0 || !IsDigit(rest[0])
    ensures DigitPrefix(d + rest) == d
    decreases |d|
  {
    if |d| > 0 {
      assert (d + rest)[1..] == d[1..] + rest;
      DigitPrefixOfDigits(d[1..], rest);
      assert d == [d[0]] + d[1..];
    } else {
      assert d + rest == rest;
    }
  }

  lemma {:induction false} WordPrefixOfWord(w: string, rest: string)
    requires forall i :: 0 <= i < |w| ==> !IsSpace(w[i])
    requires |rest| == 0 || IsSpace(rest[0])
    ensures WordPrefix(w + rest) == w
    decreases |w|
  {
    if |w| > 0 {
      assert (w + rest)[1..] == w[1..] + rest;
      WordPrefixOfWord(w[1..], rest);
      assert w == [w[0]] + w[1..];
    } else {
      assert w + rest == rest;
    }
  }

  /** A run of digits is scanned as its value, whatever non-digit text follows. */
  lemma ScanDigits(d: string, rest: string)
    requires |d| > 0 && AllDigits(d)
    requires |rest| == 0 || !IsDigit(rest[0])
    ensures ScanInteger(d + rest) == Some((false, DigitsValue(d)))
  {
    var s := d + rest;
    assert s[0] == d[0];
    NoSpaceFirst(s);
    assert !(s[0] == '-' || s[0] == '+');
    DigitPrefixOfDigits(d, rest);
  }

  /** `>>` skips nothing before a digit. */
  lemma NoSpaceFirst(s: string)
    requires |s| > 0 && IsDigit(s[0])
    ensures SkipSpace(s) == s
  {
  }

  /** The same after a minus sign. */
  lemma ScanNegativeDigits(d: string)
    requires |d| > 0 && AllDigits(d)
    ensures ScanInteger("-" + d) == Some((true, DigitsValue(d)))
  {
    var s := "-" + d;
    assert !IsSpace(s[0]);
    assert SkipSpace(s) == s;
    assert s[1..] == d + [];
    DigitPrefixOfDigits(d, []);
  }

  /** Printed digits are scanned back as the same magnitude, whatever non-digit
      text follows them. */
  lemma ScanShown(n: nat, rest: string)
    requires |rest| == 0 || !IsDigit(rest[0])
    ensures ScanInteger(ShowNat(n) + rest) == Some((false, n))
  {
    ScanDigits(ShowNat(n), rest);
  }

  /** The same, after the minus sign `<<` prints for a negative value. */
  lemma ScanShownNegative(n: nat)
    ensures ScanInteger("-" + ShowNat(n)) == Some((true, n))
  {
    ScanNegativeDigits(ShowNat(n));
  }

  /** `>>` reads back what `<<` printed for an unsigned value, and leaves any text
      after the digits unread (so `10abc` reads as 10). */
  lemma ReadUnsignedShown(n: U64, rest: string)
    requires |rest| == 0 || !IsDigit(rest[0])
    ensures ReadUnsigned(ShowNat(n) + rest) == Some(n)
  {
    ScanShown(n, rest);
  }

  /** `>>` reads back what `<<` printed for an `int`, including negative values. */
  lemma ReadSignedShown(n: I32)
    ensures ReadSigned(ShowInt(n)) == Some(n)
  {
    if n < 0 {
      ReadSignedNegative(-(n as int));
    } else {
      ReadSignedNatural(n);
    }
  }

  lemma ReadSignedNegative(m: nat)
    requires 0 < m <= 0x8000_0000
    ensures ReadSigned(ShowInt(-(m as int))) == Some(-(m as int))
  {
    var s := "-" + ShowNat(m);
    assert ShowInt(-(m as int)) == s;
    ScanShownNegative(m);
    ReadSignedOf(s, true, m);
  }

  lemma ReadSignedNatural(m: nat)
    requires m < 0x8000_0000
    ensures ReadSigned(ShowInt(m)) == Some(m)
  {
    var s := ShowNat(m);
    assert ShowInt(m) == s;
    ScanShown(m, []);
    assert s + [] == s;
    ReadSignedOf(s, false, m);
  }

  /** A scanned sign and magnitude that fit an `int` are read as that `int`. */
  lemma ReadSignedOf(s: string, negative: bool, m: nat)
    requires ScanInteger(s) == Some((negative, m))
    requires if negative then m <= 0x8000_0000 else m < 0x8000_0000
    ensures ReadSigned(s) == Some(if negative then -(m as int) else m as int)
  {
  }

  lemma ReadBoolShown(b: bool)
    ensures ReadBool(ShowBool(b)) == Some(b)
  {
    assert SkipSpace(ShowBool(b)) == ShowBool(b);
  }

  /** `>>` reads back a word and stops at the whitespace after it. */
  lemma ReadWordShown(w: string, rest: string)
    requires IsWord(w)
    requires |rest| == 0 || IsSpace(rest[0])
    ensures ReadWord(w + rest) == Some(w)
  {
    assert (w + rest)[0] == w[0];
    assert SkipSpace(w + rest) == w + rest;
    WordPrefixOfWord(w, rest);
  }
}
